=== FILE: README.md ===
# rag-kb-chatbot text core in Dafny

This project models the pure text processing of the rag-kb-chatbot backend's
ingestion and answer path, and proves properties about it:

- **Parsing** (`backend/app/services/parsing.py`, `parse_file`):
  - The file's extension is computed the way `Path.suffix` does it, then lowered.
  - PDF pages are stripped and numbered from 1, and blank pages are dropped.
  - The non-blank DOCX paragraphs are joined with newlines and stripped.
  - A `.txt`/`.md` file is stripped as a whole.
  - Any other extension is refused with `UnsupportedFileType`.
- **Chunking** (`backend/app/services/chunking.py`, `chunk_pages`):
  - Each segment's text is whitespace-normalized (`" ".join(text.split())`).
  - The text is then cut into windows of `chunkChars` characters, each starting `overlap` characters before the previous one ended.
  - Each window is stripped, and empty windows are dropped.
  - The remaining windows become chunks numbered by one running index across all segments.
- **Fallback answer** (`backend/app/services/fallback_answer.py`, `_find_first` and `build_fallback_answer`):
  - A first-match scan over the retrieved contexts.
  - Keyword dispatch on the lower-cased question: architecture, then ports, then `/chat`, then a default quote of the top context.
- **Prompt** (`backend/app/services/llm.py`, `build_prompt`): the fixed template around the joined contexts and the question.

Layout, one module per file:

- `wrappers.dfy`: `Option` and `Result`.
- `records.dfy`: the `Segment` and `Chunk` records.
- `text.dfy`: the Python `str` semantics the services rely on.
  - `isspace`, with the full Unicode whitespace set.
  - `strip`, `split()` and `sep.join`.
  - `in` on strings, and `startswith`.
- `parsing.dfy`, `chunking.dfy`, `fallback.dfy`, `prompt.dfy`: one per service.

What the model takes as inputs, since it cannot compute them:

- The PDF reader's per-page `extract_text()` results, the DOCX paragraph texts and the text of a plain file. These form the `FileSource` input of `Parsing.ParseFile`.
- The regular-expression engine. It is the `search` parameter of the fallback answer: group 1 of the first `re.search` match, or `None`.
- `str.lower` on the question. It is the `lower` parameter of the fallback answer.

Behaviour of the code worth knowing when reading the model:

- A file with no extractable text (every PDF page blank, every DOCX paragraph blank, an all-whitespace plain file) yields an empty segment list and raises nothing.
- An empty context list gives the default header followed by an empty quote.
- The chunker does not check `overlap` against `chunkChars`. A normalized segment of at most `chunkChars` characters gives one window whose end is the text's length, so the loop stops after it whatever the overlap. Only a longer segment with `overlap >= chunkChars` makes the start stop advancing, and then the loop never ends (`Chunking.StallsWithoutProgress`).
- The chunker works per segment: every chunk carries the page of the segment it was cut from.
- The chunker normalizes whitespace before windowing, so a segment whose normalized text fits in one window gives one chunk equal to that normalized text (`Chunking.ShortSegmentOneChunk`).

## Model

| member | source | states |
|---|---|---|
| Text.IsSpace | backend/app/services/parsing.py:15 | `str.isspace()` on one character: the 29 characters Python treats as whitespace, which `strip()` and `split()` remove |
| Text.Strip | backend/app/services/parsing.py:15 | `strip()` returns a slice of its input with no whitespace at either end |
| Text.StripDropsOnlySpace | backend/app/services/parsing.py:15 | everything `strip()` removes is whitespace, and the result is empty exactly when the input is all whitespace |
| Text.StripKeepsStrippedPart | backend/app/services/parsing.py:22 | a non-blank piece of a string keeps its stripped form inside the stripped whole |
| Text.Words | backend/app/services/chunking.py:12 | `split()` with no argument returns non-empty words free of whitespace; `WordsKeepText`, `WordsOfWord` and `WordsAppend` determine it as the maximal whitespace-free runs, in order |
| Text.WordsKeepText | backend/app/services/chunking.py:12 | the words of `split()`, written one after the other, are exactly the text's non-whitespace characters in order |
| Text.WordsOfWord | backend/app/services/chunking.py:12 | a non-empty whitespace-free text splits into itself alone |
| Text.WordsAppend | backend/app/services/chunking.py:12 | two texts that meet at whitespace split into the words of the first followed by those of the second, so no word spans whitespace |
| Text.WordsEmptyIff | backend/app/services/chunking.py:12-14 | `split()` yields no words exactly when the text is all whitespace |
| Text.JoinWith | backend/app/services/llm.py:6 | `sep.join(parts)`; `JoinPlacesParts` and `JoinOffsetStep` place every part and separator in the result |
| Text.JoinPlacesParts | backend/app/services/llm.py:6 | `sep.join(parts)` holds each part at its offset, with `sep` after every part but the last and nothing after the last |
| Text.Normalize | backend/app/services/chunking.py:12 | `" ".join(text.split())`; `NormalizeKeepsWords` and `NormalizeIsNormalized` say it is the text's own words separated by single spaces |
| Text.NormalizeKeepsWords | backend/app/services/chunking.py:12 | splitting the normalized text gives exactly the words of the original |
| Text.NormalizeKeepsText | backend/app/services/chunking.py:12 | normalizing keeps every non-whitespace character of the text, in order, and adds none |
| Text.NormalizeIsNormalized | backend/app/services/chunking.py:12 | `" ".join(text.split())` has no surrounding whitespace, no whitespace other than single plain spaces |
| Text.NormalizeEmptyIff | backend/app/services/chunking.py:12-14 | the normalized text is empty exactly when the original is all whitespace |
| Text.NormalizeIdempotent | backend/app/services/chunking.py:12 | normalizing an already normalized text changes nothing |
| Text.Contains | backend/app/services/fallback_answer.py:29 | Python's `needle in hay` on strings, a left-to-right scan; `ContainsIffOccurs` gives its meaning |
| Text.ContainsIffOccurs | backend/app/services/fallback_answer.py:29 | the substring scan agrees with "occurs at some offset", both ways |
| Chunking.WindowsBounds | backend/app/services/chunking.py:16-18 | the first window starts at 0; every window is non-empty, lies in the text and is at most `chunkChars` long; there are none exactly when the text is empty |
| Chunking.WindowsSized | backend/app/services/chunking.py:18-30 | every window is full length or ends the text; only the last one reaches the end, and with `overlap >= 0` it does |
| Chunking.WindowsChained | backend/app/services/chunking.py:31 | each later window starts `overlap` characters before the previous one ends |
| Chunking.ConsecutiveWindowsOverlap | backend/app/services/chunking.py:18-31 | the last `overlap` characters of a window are the first `overlap` characters of the next |
| Chunking.StitchWindows | backend/app/services/chunking.py:16-31 | the windows cover the text: concatenating them, dropping the repeated `overlap` prefix of each later one, gives the text back |
| Chunking.WindowsFrom | backend/app/services/chunking.py:16-31 | the windows the `while` loop visits from `start` all lie inside the text; `WindowsBounds`, `WindowsSized`, `WindowsChained` and `StitchWindows` give their exact positions and that they rebuild the text |
| Chunking.StallsWithoutProgress | backend/app/services/chunking.py:17-31 | with `overlap >= chunkChars` the next start does not move forward, so the loop never ends |
| Chunking.AdvancesWithProgress | backend/app/services/chunking.py:17-31 | with `0 < chunkChars` and `overlap < chunkChars` every step moves the start forward |
| Chunking.DefaultWindowsOf1300 | backend/app/services/chunking.py:5-31 | with the defaults 1200/200, a 1300-character text gives windows [0,1200) and [1000,1300) |
| Chunking.StripSliceOfNormalized | backend/app/services/chunking.py:19 | a stripped window of normalized text is normalized and sits in the text right after the whitespace it dropped |
| Chunking.StrippedWindows | backend/app/services/chunking.py:18-20 | stripping the windows and dropping the empty ones keeps at most one content per window; `EveryWindowEmits` shows none is dropped for normalized text with `chunkChars >= 2`, and `SegmentLoop` shows the loop computes it |
| Chunking.SegmentContents | backend/app/services/chunking.py:12-20 | the contents one segment yields; characterized by `SegmentContentsGood`, `SegmentContentsEmptyIff` and `ShortSegmentOneChunk` |
| Chunking.SegmentContentsGood | backend/app/services/chunking.py:12-20 | every content kept from a segment is non-empty, at most `chunkChars` long, normalized, and a substring of the normalized segment text |
| Chunking.SegmentContentsEmptyIff | backend/app/services/chunking.py:12-20 | a segment yields no content exactly when its text is all whitespace |
| Chunking.ShortSegmentOneChunk | backend/app/services/chunking.py:17-30 | a normalized text of at most `chunkChars` characters yields exactly one content, the whole normalized text |
| Chunking.EveryWindowEmits | backend/app/services/chunking.py:18-20 | with `chunkChars >= 2` no window of normalized text is blank, so every window yields its stripped text |
| Chunking.ChunkPages | backend/app/services/chunking.py:3-33 | chunk indices are exactly 0, 1, ... in output order, and every chunk carries the page of a segment whose normalized text contains its non-empty, normalized content of at most `chunkChars` characters; `ChunkPagesOfSegment` and `ChunkPagesAppend` fix the whole output |
| Chunking.NumberFromOrigin | backend/app/services/chunking.py:21-27 | every numbered chunk is one of the contents of one segment, with that segment's page |
| Chunking.ChunkPagesOfSegment | backend/app/services/chunking.py:11-28 | one segment's chunks are all of its contents, in window order, numbered from 0 and carrying its page |
| Chunking.NumberFrom | backend/app/services/chunking.py:9-28 | the running `global_idx`: each group's contents, in order, numbered consecutively from `next`; `ChunkPagesAppend` and `NumberFromOrigin` state what it keeps |
| Chunking.ChunkPagesAppend | backend/app/services/chunking.py:9-28 | chunking `a + b` gives the chunks of `a`, then those of `b` with indices moved up by the number of chunks of `a` |
| Chunking.ChunkPagesEmptyIff | backend/app/services/chunking.py:11-14 | no chunks at all exactly when every segment is all whitespace |
| Chunking.BlankSegmentSkipped | backend/app/services/chunking.py:12-14 | a blank segment contributes no chunk and consumes no index |
| Chunking.SegmentLoop | backend/app/services/chunking.py:16-31 | the `while` loop over one normalized text computes the stripped, non-empty windows |
| Chunking.ChunkPagesLoop | backend/app/services/chunking.py:8-33 | the loop over segments with its running `global_idx` computes `ChunkPages` |
| Parsing.Suffix | backend/app/services/parsing.py:8 | `path.suffix`: an extension is empty or a dot followed by dot-free characters, ending the name without being all of it; `SuffixOfStemAndExt` pins it down for stem + "." + tail |
| Parsing.Extension | backend/app/services/parsing.py:8 | `path.suffix.lower()` has no upper-case ASCII letter; `SuffixLower` shows lowering commutes with taking the suffix, so `ParseFileIgnoresCase` follows |
| Parsing.SuffixOfStemAndExt | backend/app/services/parsing.py:8 | a non-empty stem, a dot and a dot-free tail have exactly that dot and tail as extension |
| Parsing.SuffixLower | backend/app/services/parsing.py:8 | taking the extension commutes with lowering the name |
| Parsing.ParseFileIgnoresCase | backend/app/services/parsing.py:8 | names that differ only in ASCII letter case parse alike |
| Parsing.UpperCasePdfAccepted | backend/app/services/parsing.py:8-10 | `report.PDF` is read as a PDF |
| Parsing.OtherExtensionRefused | backend/app/services/parsing.py:29 | `notes.rst` is refused, and the error names `.rst` |
| Parsing.DotFileRefused | backend/app/services/parsing.py:8 | a file named `.md` has no extension and is refused |
| Parsing.PdfSegments | backend/app/services/parsing.py:13-18 | the PDF branch's segments; `PdfSegmentsSpec` and `PdfPageKeptIff` state which pages appear, with which text and in which order |
| Parsing.PdfSegmentsSpec | backend/app/services/parsing.py:13-17 | every PDF segment is page n (numbered from 1), stripped and non-empty, and pages come in strictly increasing order |
| Parsing.PdfPageKeptIff | backend/app/services/parsing.py:14-17 | page n appears exactly when its stripped text is not empty, so blank pages are skipped without renumbering |
| Parsing.PdfTextKeptIff | backend/app/services/parsing.py:14-17 | over the stripped page texts numbered from `first`, entry j yields a segment for page first+j exactly when it is not empty |
| Parsing.NonBlank | backend/app/services/parsing.py:22 | the filter `[p.text for p in d.paragraphs if p.text and p.text.strip()]`; `NonBlankMembers` and `NonBlankAppend` give its meaning |
| Parsing.NonBlankMembers | backend/app/services/parsing.py:22 | the DOCX filter keeps a paragraph exactly when it is not blank |
| Parsing.DocxKeepsParagraph | backend/app/services/parsing.py:22 | every non-blank paragraph, stripped, is in the DOCX text |
| Parsing.NonBlankAppend | backend/app/services/parsing.py:22 | the DOCX filter keeps document order: filtering a + b gives the kept paragraphs of a, then those of b |
| Parsing.DocxText | backend/app/services/parsing.py:22 | `"\n".join(kept).strip()` has no whitespace at either end; `DocxKeepsParagraph`, `NonBlankAppend` and `DocxEmptyIff` say which paragraphs reach it, in document order |
| Parsing.DocxSegments | backend/app/services/parsing.py:22-23 | the DOCX branch's segments; `DocxKeepsParagraph` and `DocxEmptyIff` state what reaches the single segment and when there is none |
| Parsing.DocxEmptyIff | backend/app/services/parsing.py:22-23 | a DOCX file yields no segment exactly when every paragraph is blank |
| Parsing.TextSegments | backend/app/services/parsing.py:26-27 | a plain file yields nothing when blank, else the one segment of its stripped text, without a page |
| Parsing.ParseFile | backend/app/services/parsing.py:7-29 | the result is an error exactly when the lowered extension is not one of `.pdf`, `.docx`, `.txt`, `.md`, and the error carries that extension; each supported extension selects its reader |
| Parsing.ParseFileClean | backend/app/services/parsing.py:14-27 | every segment is non-empty and stripped; DOCX and text files give at most one segment; only PDF segments carry a page |
| FallbackAnswer.FindFirst | backend/app/services/fallback_answer.py:4-9 | no contexts give `None`; a result is stripped |
| FallbackAnswer.FindFirstSpec | backend/app/services/fallback_answer.py:4-9 | `None` exactly when no context matches; otherwise the stripped group of the first matching context |
| FallbackAnswer.Present | backend/app/services/fallback_answer.py:21-23 | a search result's truth value: `None` and `""` are false, so an empty capture is treated as absent |
| FallbackAnswer.Entries | backend/app/services/fallback_answer.py:20-25 | the components listed by the architecture and port branches; `EntriesSpec` gives their meaning |
| FallbackAnswer.EntriesSpec | backend/app/services/fallback_answer.py:20-25 | the listed components are exactly those with a non-empty match, each with its match, in the order Backend, Frontend, Database |
| FallbackAnswer.AfterFirstLine | backend/app/services/fallback_answer.py:50 | `split("\n", 1)[-1]`; `AfterFirstLineSplits` characterizes it |
| FallbackAnswer.AfterFirstLineSplits | backend/app/services/fallback_answer.py:50 | `split("\n", 1)[-1]` is what follows a newline-free first line and its break, or the whole text when there is no break |
| FallbackAnswer.Snippet | backend/app/services/fallback_answer.py:49-50 | the quote of the default answer; `SnippetSpec` gives its meaning |
| FallbackAnswer.SnippetSpec | backend/app/services/fallback_answer.py:49-50 | the snippet is a substring of the top context taken after its first line: all of that part when it has at most 300 characters, exactly its first 300 characters otherwise |
| FallbackAnswer.BuildFallbackAnswer | backend/app/services/fallback_answer.py:11-54 | every answer begins with one of the four fixed headers |
| FallbackAnswer.HeadersDistinct | backend/app/services/fallback_answer.py:26-52 | no text starts with two different headers |
| FallbackAnswer.AsksArchitecture | backend/app/services/fallback_answer.py:15 | one of "kiến trúc", "thành phần", "architecture", "components" is in the lower-cased question |
| FallbackAnswer.AsksPorts | backend/app/services/fallback_answer.py:29 | "port" is in the lower-cased question |
| FallbackAnswer.AsksChat | backend/app/services/fallback_answer.py:42 | "/chat" or "endpoint" is in the lower-cased question |
| FallbackAnswer.BranchPriority | backend/app/services/fallback_answer.py:12-45 | architecture is answered before ports and ports before `/chat`, each only when its keywords are in the lower-cased question and its search finds something; otherwise the default answer |
| FallbackAnswer.ArchitectureAnswerLists | backend/app/services/fallback_answer.py:15-26 | the architecture answer is its header and one line per component found, in fixed order |
| FallbackAnswer.PortAnswerLists | backend/app/services/fallback_answer.py:29-39 | the port answer is its header and one line per port found, in fixed order |
| FallbackAnswer.ChatAnswerQuotes | backend/app/services/fallback_answer.py:42-46 | the `/chat` answer quotes the first stripped, non-empty capture of the chat pattern |
| FallbackAnswer.NoContextsDefaultAnswer | backend/app/services/fallback_answer.py:11-54 | with no contexts, the answer is exactly the default header, whatever the question |
| FallbackAnswer.DefaultAnswerQuotes | backend/app/services/fallback_answer.py:49-54 | the default answer quotes the top context after its first line: all of it when it has at most 300 characters, exactly its first 300 otherwise, and nothing when there are no contexts |
| Prompt.BuildPrompt | backend/app/services/llm.py:5-13 | the prompt starts with the two instruction lines and a blank line, then `"CONTEXT:\n"`; it ends with `"\n\nQUESTION: "`, the question and `"\nANSWER:"`; its length leaves exactly the joined contexts between the two, which `BodyInPrompt` places there |
| Prompt.PromptRoundTrip | backend/app/services/llm.py:6-12 | the joined contexts and the question can be read back out of the prompt |
| Prompt.PromptInjectiveInQuestion | backend/app/services/llm.py:11 | for fixed contexts, different questions give different prompts |
| Prompt.ContextsInOrder | backend/app/services/llm.py:6-10 | every context appears whole, in order, in the CONTEXT section, with a blank line after each one but the last |
| Prompt.NoContextsEmptySection | backend/app/services/llm.py:6-10 | no contexts leave the CONTEXT section empty |
| Prompt.SingleContextVerbatim | backend/app/services/llm.py:6-10 | a single context appears verbatim |

## Left out

- Reading files, and the PDF and DOCX text extraction (`PdfReader`, `docx.Document`, `read_text` with `errors="ignore"`): foreign libraries and I/O. Their results are the `FileSource` input.
- Path handling: `Parsing.ParseFile` takes the final path component, not a full path.
- Unicode case mapping: the model lowers ASCII letters only (`Parsing.AsciiLower`). This is exact for deciding which branch runs, because no other character lowers to a letter of `pdf`, `docx`, `txt` or `md`. For a name with non-ASCII upper-case letters in its extension, the extension reported in the error may differ from Python's.
- Regular-expression semantics: `IGNORECASE`, lazy `.*?`, backtracking. The engine is the `search` parameter; only the pattern strings are kept.
- `str.lower` on the question: a parameter of `FallbackAnswer.BuildFallbackAnswer`.
- Chunking.ChunkPages: requires `0 < chunkChars` and `overlap < chunkChars`. The source also ends with `overlap >= chunkChars` as long as every normalized segment has at most `chunkChars` characters (one window each); that case is not modelled. With a longer segment and `overlap >= chunkChars` the source never ends (`Chunking.StallsWithoutProgress`). With `chunkChars <= 0` it slices with Python's negative indices; that is not modelled either.
- `try_ollama` in `backend/app/services/llm.py`: an HTTP call with exception swallowing.
- `backend/app/services/embeddings.py`: model inference and floating-point vectors.
- The database models, settings, FastAPI application and routes: schema, configuration and transport, with no logic of their own here.

=== FILE: chunking.dfy ===
/** The chunker: every segment's text is whitespace-normalized, then cut into
    windows of `chunkChars` characters, each window starting `overlap`
    characters before the previous one ended. Each window is stripped, empty
    ones are dropped, and the rest become chunks numbered by one running index
    across all segments. */
module Chunking {
  import opened Wrappers
  import opened Text
  import opened Records

  /** The chunker's default window size and overlap. */
  const DefaultChunkChars: int := 1200
  const DefaultOverlap: int := 200

  /** A raw window `text[start:end]`, before stripping. */
  datatype Window = Window(start: nat, end: nat)

  function Min(a: int, b: int): int { if a <= b then a else b }

  function Max(a: int, b: int): int { if a >= b then a else b }

  /** The configurations the model covers: a positive window size and an
      overlap smaller than it, so every step moves the window forward. */
  predicate Progresses(chunkChars: int, overlap: int) {
    0 < chunkChars && overlap < chunkChars
  }

  /** `end = min(len(text), start + chunk_chars)` */
  function WindowEnd(n: nat, chunkChars: int, start: nat): int {
    Min(n, start + chunkChars)
  }

  /** `start = max(0, end - overlap)` */
  function NextStart(end: int, overlap: int): int {
    Max(0, end - overlap)
  }

  // ---------------------------------------------------------------------------
  // Windows

  /** Window `i` starts `overlap` characters before window `i - 1` ends. */
  predicate Follows(ws: seq<Window>, i: nat, overlap: int)
    requires 0 < i < |ws|
  {
    ws[i].start == ws[i - 1].end - overlap
  }

  /** Every window lies inside a text of length `n`. */
  predicate WindowsIn(ws: seq<Window>, n: nat) {
    forall i :: 0 <= i < |ws| ==> ws[i].start <= ws[i].end <= n
  }

  /** The windows the loop visits from `start` over a text of length `n`. */
  function WindowsFrom(n: nat, chunkChars: int, overlap: int, start: nat): (ws: seq<Window>)
    requires Progresses(chunkChars, overlap)
    ensures WindowsIn(ws, n)
    decreases n - start
  {
    if n <= start then []
    else
      var end := WindowEnd(n, chunkChars, start);
      if end >= n then [Window(start, end)]
      else [Window(start, end)] + WindowsFrom(n, chunkChars, overlap, NextStart(end, overlap))
  }

  /** All windows of a text of length `n`: the loop starts at 0. */
  function Windows(n: nat, chunkChars: int, overlap: int): (ws: seq<Window>)
    requires Progresses(chunkChars, overlap)
  {
    WindowsFrom(n, chunkChars, overlap, 0)
  }

  /** Every window is a non-empty slice of the text at or after `start`, no
      longer than `chunkChars`; there is one exactly when `start` is inside
      the text, and the first one starts there. */
  predicate Bounded(ws: seq<Window>, n: nat, chunkChars: int, start: nat) {
    && (ws == [] <==> n <= start)
    && (ws != [] ==> ws[0].start == start)
    && (forall i :: 0 <= i < |ws| ==> start <= ws[i].start < ws[i].end <= n)
    && (forall i :: 0 <= i < |ws| ==> ws[i].end - ws[i].start <= chunkChars)
  }

  lemma {:induction false} WindowsBounds(n: nat, chunkChars: int, overlap: int, start: nat)
    requires Progresses(chunkChars, overlap)
    ensures Bounded(WindowsFrom(n, chunkChars, overlap, start), n, chunkChars, start)
    decreases n - start
  {
    if n > start {
      var end := WindowEnd(n, chunkChars, start);
      if end < n {
        var s2 := NextStart(end, overlap);
        WindowsBounds(n, chunkChars, overlap, s2);
        var ws := WindowsFrom(n, chunkChars, overlap, start);
        var rest := WindowsFrom(n, chunkChars, overlap, s2);
        assert ws == [Window(start, end)] + rest;
        forall i | 0 < i < |ws| ensures ws[i] == rest[i - 1] {
        }
      }
    }
  }

  /** The sizes of the windows over a text of length `n`: every window is
      full-size unless it reaches the end of the text, only the last one may
      reach the end, and with a non-negative overlap the last one does. */
  predicate Sized(ws: seq<Window>, n: nat, chunkChars: int, overlap: int) {
    && (forall i :: 0 <= i < |ws| ==> ws[i].end - ws[i].start == chunkChars || ws[i].end == n)
    && (forall i :: 0 <= i < |ws| - 1 ==> ws[i].end < n)
    && (0 <= overlap && ws != [] ==> ws[|ws| - 1].end == n)
  }

  /** Each window starts `overlap` characters before its predecessor ended. */
  predicate Chained(ws: seq<Window>, overlap: int) {
    forall i: nat :: 0 < i < |ws| ==> Follows(ws, i, overlap)
  }

  /** The loop's windows are sized as the loop promises. */
  lemma {:induction false} WindowsSized(n: nat, chunkChars: int, overlap: int, start: nat)
    requires Progresses(chunkChars, overlap)
    ensures Sized(WindowsFrom(n, chunkChars, overlap, start), n, chunkChars, overlap)
    decreases n - start
  {
    var ws := WindowsFrom(n, chunkChars, overlap, start);
    if n > start {
      var end := WindowEnd(n, chunkChars, start);
      if end < n {
        var s2 := NextStart(end, overlap);
        var rest := WindowsFrom(n, chunkChars, overlap, s2);
        WindowsSized(n, chunkChars, overlap, s2);
        WindowsBounds(n, chunkChars, overlap, s2);
        WindowsFromCons(n, chunkChars, overlap, start);
        forall i | 0 < i < |ws| ensures ws[i] == rest[i - 1] {
        }
      }
    }
  }

  /** Each of the loop's windows starts `overlap` before the previous one ended. */
  lemma {:induction false} WindowsChained(n: nat, chunkChars: int, overlap: int, start: nat)
    requires Progresses(chunkChars, overlap)
    ensures Chained(WindowsFrom(n, chunkChars, overlap, start), overlap)
    decreases n - start
  {
    var ws := WindowsFrom(n, chunkChars, overlap, start);
    if n > start {
      var end := WindowEnd(n, chunkChars, start);
      if end < n {
        var s2 := NextStart(end, overlap);
        var rest := WindowsFrom(n, chunkChars, overlap, s2);
        WindowsChained(n, chunkChars, overlap, s2);
        WindowsBounds(n, chunkChars, overlap, s2);
        WindowsFromCons(n, chunkChars, overlap, start);
        forall i: nat | 0 < i < |ws| ensures Follows(ws, i, overlap) {
          if i > 1 {
            assert Follows(rest, i - 1, overlap);
          }
        }
      }
    }
  }

  /** With an overlap at least the window size, a window that does not reach
      the end is followed by one starting no later: the loop never ends. */
  lemma StallsWithoutProgress(n: nat, chunkChars: int, overlap: int, start: nat)
    requires chunkChars <= overlap
    requires start < n && WindowEnd(n, chunkChars, start) < n
    ensures NextStart(WindowEnd(n, chunkChars, start), overlap) <= start
  {
  }

  /** Under `Progresses`, every step strictly advances the window start. */
  lemma AdvancesWithProgress(n: nat, chunkChars: int, overlap: int, start: nat)
    requires Progresses(chunkChars, overlap)
    requires start < n && WindowEnd(n, chunkChars, start) < n
    ensures NextStart(WindowEnd(n, chunkChars, start), overlap) > start
  {
  }

  /** The example of a 1300-character text with the default configuration:
      windows [0, 1200) and [1000, 1300). */
  lemma DefaultWindowsOf1300()
    ensures Windows(1300, DefaultChunkChars, DefaultOverlap) == [Window(0, 1200), Window(1000, 1300)]
  {
  }

  /** Consecutive windows share exactly `overlap` characters: the last
      `overlap` characters of one window are the first of the next. */
  lemma ConsecutiveWindowsOverlap(text: string, chunkChars: int, overlap: int, i: nat)
    requires Progresses(chunkChars, overlap) && 0 <= overlap
    requires i + 1 < |Windows(|text|, chunkChars, overlap)|
    ensures var ws := Windows(|text|, chunkChars, overlap);
      && overlap <= ws[i].end - ws[i].start
      && overlap <= ws[i + 1].end - ws[i + 1].start
      && text[ws[i].end - overlap..ws[i].end] == text[ws[i + 1].start..ws[i + 1].start + overlap]
  {
    var ws := Windows(|text|, chunkChars, overlap);
    WindowsSized(|text|, chunkChars, overlap, 0);
    WindowsChained(|text|, chunkChars, overlap, 0);
    assert Follows(ws, i + 1, overlap);
    assert ws[i].end < |text|;
  }

  // ---------------------------------------------------------------------------
  // Reassembling the text from its windows

  /** The raw text of each window, in order. */
  function Pieces(text: string, ws: seq<Window>): (ps: seq<string>)
    requires WindowsIn(ws, |text|)
    ensures |ps| == |ws|
  {
    if ws == [] then [] else [text[ws[0].start..ws[0].end]] + Pieces(text, ws[1..])
  }

  function Drop(s: string, k: nat): string {
    if k <= |s| then s[k..] else []
  }

  /** Every piece after the first, without its first `overlap` characters. */
  function StitchTails(pieces: seq<string>, overlap: nat): string {
    if pieces == [] then [] else Drop(pieces[0], overlap) + StitchTails(pieces[1..], overlap)
  }

  /** The first piece whole, then every later piece without the `overlap`
      characters it shares with its predecessor. */
  function Stitch(pieces: seq<string>, overlap: nat): string {
    if pieces == [] then [] else pieces[0] + StitchTails(pieces[1..], overlap)
  }

  lemma StitchTailsOfStitch(ps: seq<string>, overlap: nat)
    requires ps != [] && overlap <= |ps[0]|
    ensures StitchTails(ps, overlap) == Drop(Stitch(ps, overlap), overlap)
  {
    var rest := StitchTails(ps[1..], overlap);
    assert (ps[0] + rest)[overlap..] == ps[0][overlap..] + rest;
  }

  lemma {:induction false} StitchWindowsFrom(text: string, chunkChars: int, overlap: int, start: nat)
    requires Progresses(chunkChars, overlap) && 0 <= overlap
    requires start < |text|
    ensures Stitch(Pieces(text, WindowsFrom(|text|, chunkChars, overlap, start)), overlap) == text[start..]
    decreases |text| - start
  {
    var n := |text|;
    var end := WindowEnd(n, chunkChars, start);
    if end >= n {
      StitchLastWindow(text, chunkChars, overlap, start);
    } else {
      var s2 := NextStart(end, overlap);
      StitchWindowsFrom(text, chunkChars, overlap, s2);
      StitchStep(text, chunkChars, overlap, start);
    }
  }

  /** The window that reaches the end of the text is all that is left. */
  lemma StitchLastWindow(text: string, chunkChars: int, overlap: int, start: nat)
    requires Progresses(chunkChars, overlap) && 0 <= overlap
    requires start < |text| <= WindowEnd(|text|, chunkChars, start)
    ensures Stitch(Pieces(text, WindowsFrom(|text|, chunkChars, overlap, start)), overlap) == text[start..]
  {
    var ws := WindowsFrom(|text|, chunkChars, overlap, start);
    assert ws == [Window(start, |text|)];
    assert ws[1..] == [];
    assert Pieces(text, ws) == [text[start..|text|]];
    assert text[start..|text|] == text[start..];
  }

  /** Stitching one more piece in front. */
  lemma StitchCons(p0: string, ps: seq<string>, overlap: nat)
    requires ps != [] && overlap <= |ps[0]|
    ensures Stitch([p0] + ps, overlap) == p0 + Drop(Stitch(ps, overlap), overlap)
  {
    assert ([p0] + ps)[1..] == ps;
    StitchTailsOfStitch(ps, overlap);
  }

  /** The next window, which starts `overlap` before `end`, is at least
      `overlap` long. */
  lemma NextWindowCoversOverlap(text: string, chunkChars: int, overlap: int, end: nat)
    requires Progresses(chunkChars, overlap) && 0 <= overlap <= end < |text|
    ensures var ws := WindowsFrom(|text|, chunkChars, overlap, end - overlap);
      ws != [] && overlap <= |Pieces(text, ws)[0]|
  {
    var ws := WindowsFrom(|text|, chunkChars, overlap, end - overlap);
    assert ws[0] == Window(end - overlap, WindowEnd(|text|, chunkChars, end - overlap));
  }

  /** A window that does not reach the end is followed by the windows from
      the next start. */
  lemma WindowsFromCons(n: nat, chunkChars: int, overlap: int, start: nat)
    requires Progresses(chunkChars, overlap)
    requires start < n && WindowEnd(n, chunkChars, start) < n
    ensures var end := WindowEnd(n, chunkChars, start);
      WindowsFrom(n, chunkChars, overlap, start)
        == [Window(start, end)] + WindowsFrom(n, chunkChars, overlap, NextStart(end, overlap))
  {
  }

  lemma PiecesCons(text: string, w: Window, rest: seq<Window>)
    requires WindowsIn([w] + rest, |text|)
    ensures w.start <= w.end <= |text| && WindowsIn(rest, |text|)
    ensures Pieces(text, [w] + rest) == [text[w.start..w.end]] + Pieces(text, rest)
  {
    assert ([w] + rest)[0] == w;
    assert ([w] + rest)[1..] == rest;
    assert forall i :: 0 <= i < |rest| ==> rest[i] == ([w] + rest)[i + 1];
  }

  /** One step of the reconstruction: the first window, then the rest stitched
      from where the next window starts, minus the overlap. */
  lemma StitchStep(text: string, chunkChars: int, overlap: int, start: nat)
    requires Progresses(chunkChars, overlap) && 0 <= overlap
    requires start < |text| && WindowEnd(|text|, chunkChars, start) < |text|
    requires var s2 := NextStart(WindowEnd(|text|, chunkChars, start), overlap);
      s2 < |text| && Stitch(Pieces(text, WindowsFrom(|text|, chunkChars, overlap, s2)), overlap) == text[s2..]
    ensures Stitch(Pieces(text, WindowsFrom(|text|, chunkChars, overlap, start)), overlap) == text[start..]
  {
    var n := |text|;
    var end := WindowEnd(n, chunkChars, start);
    var s2 := NextStart(end, overlap);
    var rest := WindowsFrom(n, chunkChars, overlap, s2);
    WindowsFromCons(n, chunkChars, overlap, start);
    PiecesCons(text, Window(start, end), rest);
    NextWindowCoversOverlap(text, chunkChars, overlap, end);
    StitchCons(text[start..end], Pieces(text, rest), overlap);
    Glue(text, start, end, overlap);
  }

  /** `text[start:end]` followed by `text[end - overlap:]` without its first
      `overlap` characters is `text[start:]`. */
  lemma Glue(text: string, start: nat, end: nat, overlap: nat)
    requires start <= end <= |text| && overlap <= end
    ensures text[start..end] + Drop(text[end - overlap..], overlap) == text[start..]
  {
    assert text[end - overlap..][overlap..] == text[end..];
  }

  /** The reconstruction law: the first window, followed by every later
      window minus the `overlap` characters it repeats, is the whole text. */
  lemma StitchWindows(text: string, chunkChars: int, overlap: int)
    requires Progresses(chunkChars, overlap) && 0 <= overlap
    ensures Stitch(Pieces(text, Windows(|text|, chunkChars, overlap)), overlap) == text
  {
    if text != [] {
      StitchWindowsFrom(text, chunkChars, overlap, 0);
    }
  }

  // ---------------------------------------------------------------------------
  // From windows to chunks

  /** A trimmed slice of a normalized text is normalized. */
  lemma NormalizedSlice(text: string, c: nat, d: nat)
    requires IsNormalized(text) && c <= d <= |text| && Trimmed(text[c..d])
    ensures IsNormalized(text[c..d])
  {
    var r := text[c..d];
    forall i | 0 <= i < |r| && IsSpace(r[i]) ensures r[i] == ' ' {
      assert r[i] == text[c + i];
    }
    forall i: nat | i + 1 < |r| ensures !DoubleSpaceAt(r, i) {
      assert !DoubleSpaceAt(text, c + i);
    }
  }

  /** Stripping a slice of `text` gives the slice of `text` that starts
      after the leading whitespace the strip dropped. */
  lemma StripSlice(text: string, a: nat, b: nat)
    requires a <= b <= |text|
    ensures var r := Strip(text[a..b]); var k := a + StripOffset(text[a..b]);
      k + |r| <= b && r == text[k..k + |r|]
  {
    var s := text[a..b];
    var k := StripOffset(s);
    var r := Strip(s);
    SliceOfSlice(text, a, b, k, k + |r|);
  }

  /** A slice of a normalized text, once stripped, is normalized and sits in
      the text right after the whitespace the strip dropped. */
  lemma StripSliceOfNormalized(text: string, a: nat, b: nat)
    requires IsNormalized(text) && a <= b <= |text|
    ensures var r := Strip(text[a..b]); var k := a + StripOffset(text[a..b]);
      IsNormalized(r) && OccursAt(r, text, k) && k + |r| <= b
  {
    var r := Strip(text[a..b]);
    var k := a + StripOffset(text[a..b]);
    StripSlice(text, a, b);
    NormalizedSlice(text, k, k + |r|);
  }

  /** A stripped window: a non-empty normalized substring of the text, no
      longer than the window size. */
  predicate GoodContent(c: string, text: string, chunkChars: int) {
    c != [] && |c| <= chunkChars && IsNormalized(c) && Contains(text, c)
  }

  predicate AllGood(cs: seq<string>, text: string, chunkChars: int) {
    forall i :: 0 <= i < |cs| ==> GoodContent(cs[i], text, chunkChars)
  }

  /** `content = text[start:end].strip()` for each window, kept only when non-empty. */
  function StrippedWindows(text: string, ws: seq<Window>): (cs: seq<string>)
    requires WindowsIn(ws, |text|)
    ensures |cs| <= |ws|
  {
    if ws == [] then []
    else
      var content := Strip(text[ws[0].start..ws[0].end]);
      (if content != [] then [content] else []) + StrippedWindows(text, ws[1..])
  }

  /** The contents one segment contributes: its text is normalized, skipped
      when that leaves nothing, and otherwise cut into stripped windows. */
  function SegmentContents(text: string, chunkChars: int, overlap: int): seq<string>
    requires Progresses(chunkChars, overlap)
  {
    var t := Normalize(text);
    if t == [] then [] else StrippedWindows(t, Windows(|t|, chunkChars, overlap))
  }

  /** What one segment contributes before numbering: its page and its contents. */
  datatype Group = Group(page: Option<int>, contents: seq<string>)

  function Groups(pages: seq<Segment>, chunkChars: int, overlap: int): (gs: seq<Group>)
    requires Progresses(chunkChars, overlap)
    ensures |gs| == |pages|
  {
    if pages == [] then []
    else [Group(pages[0].page, SegmentContents(pages[0].text, chunkChars, overlap))] + Groups(pages[1..], chunkChars, overlap)
  }

  /** The chunks of one group, numbered from `next`. */
  function Number(page: Option<int>, contents: seq<string>, next: nat): seq<Chunk> {
    seq(|contents|, i requires 0 <= i < |contents| => Chunk(page, next + i, contents[i]))
  }

  /** The running index `global_idx`: every group's contents in order, numbered
      from `next` and carrying the group's page. */
  function NumberFrom(gs: seq<Group>, next: nat): (cs: seq<Chunk>)
    ensures forall i :: 0 <= i < |cs| ==> cs[i].chunkIndex == next + i
  {
    if gs == [] then []
    else Number(gs[0].page, gs[0].contents, next) + NumberFrom(gs[1..], next + |gs[0].contents|)
  }

  /** Chunk `c` comes from one of the segments: it carries that segment's page,
      and its content is a good stripped window of that segment's normalized text. */
  predicate FromPage(c: Chunk, pages: seq<Segment>, chunkChars: int) {
    exists p :: 0 <= p < |pages| && pages[p].page == c.page && GoodContent(c.content, Normalize(pages[p].text), chunkChars)
  }

  predicate AllFromPages(cs: seq<Chunk>, pages: seq<Segment>, chunkChars: int) {
    forall i :: 0 <= i < |cs| ==> FromPage(cs[i], pages, chunkChars)
  }

  /** `chunk_pages(pages, chunk_chars, overlap)`: the chunk indices are exactly
      0, 1, ..., in output order across all segments, and every chunk comes
      from one of the segments, carrying its page, with a non-empty normalized
      content of at most `chunkChars` characters found in that segment's
      normalized text. */
  function ChunkPages(pages: seq<Segment>, chunkChars: int, overlap: int): (cs: seq<Chunk>)
    requires Progresses(chunkChars, overlap)
    ensures forall i :: 0 <= i < |cs| ==> cs[i].chunkIndex == i
    ensures AllFromPages(cs, pages, chunkChars)
  {
    ChunkPagesProvenance(pages, chunkChars, overlap);
    NumberFrom(Groups(pages, chunkChars, overlap), 0)
  }

  /** A single segment's chunks are all of its contents, in window order,
      numbered from 0 and carrying its page. With `ChunkPagesAppend` this
      fixes the chunks of any list of segments. */
  lemma ChunkPagesOfSegment(seg: Segment, chunkChars: int, overlap: int)
    requires Progresses(chunkChars, overlap)
    ensures ChunkPages([seg], chunkChars, overlap) == Number(seg.page, SegmentContents(seg.text, chunkChars, overlap), 0)
  {
    var gs := Groups([seg], chunkChars, overlap);
    var n := Number(seg.page, SegmentContents(seg.text, chunkChars, overlap), 0);
    assert gs == [Group(seg.page, SegmentContents(seg.text, chunkChars, overlap))];
    assert gs[1..] == [];
    assert NumberFrom(gs, 0) == n + NumberFrom(gs[1..], |gs[0].contents|);
    assert n + [] == n;
  }

  // ---------------------------------------------------------------------------
  // Contents of one segment

  /** Over a normalized text and windows of at most `chunkChars` characters,
      every stripped window kept is good. */
  lemma {:induction false} StrippedWindowsGood(text: string, chunkChars: int, ws: seq<Window>)
    requires IsNormalized(text) && WindowsIn(ws, |text|)
    requires forall i :: 0 <= i < |ws| ==> ws[i].end - ws[i].start <= chunkChars
    ensures AllGood(StrippedWindows(text, ws), text, chunkChars)
  {
    if ws != [] {
      var a, b := ws[0].start, ws[0].end;
      var content := Strip(text[a..b]);
      StrippedWindowsGood(text, chunkChars, ws[1..]);
      if content != [] {
        StripSliceOfNormalized(text, a, b);
        OccursImpliesContains(text, content, a + StripOffset(text[a..b]));
      }
    }
  }

  /** Every content of a segment is a good stripped window of its normalized text. */
  lemma SegmentContentsGood(text: string, chunkChars: int, overlap: int)
    requires Progresses(chunkChars, overlap)
    ensures AllGood(SegmentContents(text, chunkChars, overlap), Normalize(text), chunkChars)
  {
    var t := Normalize(text);
    if t != [] {
      NormalizeIsNormalized(text);
      WindowsBounds(|t|, chunkChars, overlap, 0);
      StrippedWindowsGood(t, chunkChars, Windows(|t|, chunkChars, overlap));
    }
  }

  /** A segment yields nothing exactly when its text is all whitespace: the
      first window starts on the first character of the normalized text,
      which is never whitespace. */
  lemma SegmentContentsEmptyIff(text: string, chunkChars: int, overlap: int)
    requires Progresses(chunkChars, overlap)
    ensures SegmentContents(text, chunkChars, overlap) == [] <==> AllSpace(text)
  {
    var t := Normalize(text);
    NormalizeEmptyIff(text);
    if t != [] {
      NormalizeIsNormalized(text);
      WindowsBounds(|t|, chunkChars, overlap, 0);
      var ws := Windows(|t|, chunkChars, overlap);
      StripDropsOnlySpace(t[0..ws[0].end]);
      assert t[0..ws[0].end][0] == t[0];
    }
  }

  /** A segment whose normalized text fits in one window yields exactly that
      normalized text. */
  lemma ShortSegmentOneChunk(text: string, chunkChars: int, overlap: int)
    requires Progresses(chunkChars, overlap)
    requires 0 < |Normalize(text)| <= chunkChars
    ensures SegmentContents(text, chunkChars, overlap) == [Normalize(text)]
  {
    var t := Normalize(text);
    var ws := Windows(|t|, chunkChars, overlap);
    assert ws == [Window(0, |t|)];
    assert t[0..|t|] == t;
    NormalizeIsNormalized(text);
    StripTrimmed(t);
    assert ws[1..] == [];
  }

  /** In a normalized text a window of two characters or more, or one that
      reaches the end, holds a non-whitespace character. */
  lemma WindowNotBlank(text: string, a: nat, b: nat)
    requires IsNormalized(text) && a < b <= |text|
    requires 2 <= b - a || b == |text|
    ensures !AllSpace(text[a..b])
  {
    if b == |text| {
      assert text[a..b][b - 1 - a] == text[b - 1];
    } else {
      assert !DoubleSpaceAt(text, a);
      assert text[a..b][0] == text[a];
      assert text[a..b][1] == text[a + 1];
    }
  }

  /** When no window is blank, every window yields its stripped text, in order. */
  lemma {:induction false} StripAll(text: string, ws: seq<Window>)
    requires WindowsIn(ws, |text|)
    requires forall i :: 0 <= i < |ws| ==> !AllSpace(text[ws[i].start..ws[i].end])
    ensures var cs := StrippedWindows(text, ws);
      |cs| == |ws| && forall i :: 0 <= i < |ws| ==> cs[i] == Strip(text[ws[i].start..ws[i].end])
  {
    if ws != [] {
      StripDropsOnlySpace(text[ws[0].start..ws[0].end]);
      StripAll(text, ws[1..]);
      var cs := StrippedWindows(text, ws);
      var rest := StrippedWindows(text, ws[1..]);
      assert cs == [cs[0]] + rest;
      forall i | 0 < i < |ws| ensures cs[i] == Strip(text[ws[i].start..ws[i].end]) {
        assert cs[i] == rest[i - 1];
        assert ws[i] == ws[1..][i - 1];
      }
    }
  }

  /** With windows of at least two characters no window is ever dropped: a
      segment's contents are exactly its stripped windows, one per window. */
  lemma EveryWindowEmits(text: string, chunkChars: int, overlap: int)
    requires Progresses(chunkChars, overlap) && 2 <= chunkChars
    ensures var t := Normalize(text);
      var ws := Windows(|t|, chunkChars, overlap);
      var cs := SegmentContents(text, chunkChars, overlap);
      |cs| == |ws| && forall i :: 0 <= i < |ws| ==> cs[i] == Strip(t[ws[i].start..ws[i].end])
  {
    var t := Normalize(text);
    if t != [] {
      var ws := Windows(|t|, chunkChars, overlap);
      NormalizeIsNormalized(text);
      WindowsBounds(|t|, chunkChars, overlap, 0);
      WindowsSized(|t|, chunkChars, overlap, 0);
      forall i | 0 <= i < |ws| ensures !AllSpace(t[ws[i].start..ws[i].end]) {
        WindowNotBlank(t, ws[i].start, ws[i].end);
      }
      StripAll(t, ws);
    }
  }

  // ---------------------------------------------------------------------------
  // Numbering across segments

  /** Groups of a concatenation are the concatenation of the groups. */
  lemma {:induction false} GroupsAppend(a: seq<Segment>, b: seq<Segment>, chunkChars: int, overlap: int)
    requires Progresses(chunkChars, overlap)
    ensures Groups(a + b, chunkChars, overlap) == Groups(a, chunkChars, overlap) + Groups(b, chunkChars, overlap)
    decreases |a|
  {
    if a == [] {
      assert a + b == b;
    } else {
      assert (a + b)[0] == a[0];
      assert (a + b)[1..] == a[1..] + b;
      GroupsAppend(a[1..], b, chunkChars, overlap);
    }
  }

  /** Group `p` holds the page and the contents of segment `p`. */
  lemma {:induction false} GroupsAt(pages: seq<Segment>, chunkChars: int, overlap: int, p: nat)
    requires Progresses(chunkChars, overlap) && p < |pages|
    ensures Groups(pages, chunkChars, overlap)[p] == Group(pages[p].page, SegmentContents(pages[p].text, chunkChars, overlap))
    decreases p
  {
    if p > 0 {
      GroupsAt(pages[1..], chunkChars, overlap, p - 1);
      assert pages[1..][p - 1] == pages[p];
    }
  }

  /** Numbering a concatenation of groups numbers the first part, then the
      second part from where the first stopped. */
  lemma {:induction false} NumberFromAppend(g1: seq<Group>, g2: seq<Group>, next: nat)
    ensures var c1 := NumberFrom(g1, next);
      NumberFrom(g1 + g2, next) == c1 + NumberFrom(g2, next + |c1|)
    decreases |g1|
  {
    if g1 == [] {
      assert g1 + g2 == g2;
    } else {
      assert (g1 + g2)[0] == g1[0];
      assert (g1 + g2)[1..] == g1[1..] + g2;
      NumberFromAppend(g1[1..], g2, next + |g1[0].contents|);
    }
  }

  /** Every numbered chunk is one of the contents of one of the groups,
      with that group's page. */
  lemma {:induction false} NumberFromOrigin(gs: seq<Group>, next: nat, i: nat)
    requires i < |NumberFrom(gs, next)|
    ensures exists g, j ::
      && 0 <= g < |gs| && 0 <= j < |gs[g].contents|
      && NumberFrom(gs, next)[i].page == gs[g].page && NumberFrom(gs, next)[i].content == gs[g].contents[j]
    decreases |gs|
  {
    var first := Number(gs[0].page, gs[0].contents, next);
    var rest := NumberFrom(gs[1..], next + |gs[0].contents|);
    assert NumberFrom(gs, next) == first + rest;
    if i < |first| {
      assert NumberFrom(gs, next)[i] == first[i];
    } else {
      NumberFromOrigin(gs[1..], next + |gs[0].contents|, i - |first|);
      assert NumberFrom(gs, next)[i] == rest[i - |first|];
      var g, j :| 0 <= g < |gs[1..]| && 0 <= j < |gs[1..][g].contents|
        && rest[i - |first|].page == gs[1..][g].page && rest[i - |first|].content == gs[1..][g].contents[j];
      assert gs[1..][g] == gs[g + 1];
    }
  }

  lemma ChunkPagesProvenance(pages: seq<Segment>, chunkChars: int, overlap: int)
    requires Progresses(chunkChars, overlap)
    ensures AllFromPages(NumberFrom(Groups(pages, chunkChars, overlap), 0), pages, chunkChars)
  {
    var gs := Groups(pages, chunkChars, overlap);
    var cs := NumberFrom(gs, 0);
    forall i | 0 <= i < |cs| ensures FromPage(cs[i], pages, chunkChars) {
      NumberFromOrigin(gs, 0, i);
      var g, j :| 0 <= g < |gs| && 0 <= j < |gs[g].contents|
        && cs[i].page == gs[g].page && cs[i].content == gs[g].contents[j];
      GroupsAt(pages, chunkChars, overlap, g);
      SegmentContentsGood(pages[g].text, chunkChars, overlap);
    }
  }

  /** Renumbering: every chunk index moved up by `k`. */
  function Shift(cs: seq<Chunk>, k: nat): seq<Chunk> {
    seq(|cs|, i requires 0 <= i < |cs| => cs[i].(chunkIndex := cs[i].chunkIndex + k))
  }

  /** Numbering from `next` is numbering from 0, then shifting by `next`. */
  lemma {:induction false} NumberFromShift(gs: seq<Group>, next: nat)
    ensures NumberFrom(gs, next) == Shift(NumberFrom(gs, 0), next)
    decreases |gs|
  {
    if gs != [] {
      var n0 := |gs[0].contents|;
      NumberFromShift(gs[1..], next + n0);
      NumberFromShift(gs[1..], n0);
      var a := NumberFrom(gs[1..], next + n0);
      var b := NumberFrom(gs[1..], n0);
      var c := NumberFrom(gs[1..], 0);
      assert a == Shift(c, next + n0);
      assert b == Shift(c, n0);
      assert a == Shift(b, next);
    }
  }

  /** Chunking is independent across segments: chunking `a + b` gives the
      chunks of `a`, then the chunks of `b` alone with every index moved up
      by the number of chunks of `a`. */
  lemma ChunkPagesAppend(a: seq<Segment>, b: seq<Segment>, chunkChars: int, overlap: int)
    requires Progresses(chunkChars, overlap)
    ensures var ca := ChunkPages(a, chunkChars, overlap);
      ChunkPages(a + b, chunkChars, overlap) == ca + Shift(ChunkPages(b, chunkChars, overlap), |ca|)
  {
    var ga := Groups(a, chunkChars, overlap);
    var gb := Groups(b, chunkChars, overlap);
    GroupsAppend(a, b, chunkChars, overlap);
    NumberFromAppend(ga, gb, 0);
    NumberFromShift(gb, |NumberFrom(ga, 0)|);
  }

  /** Numbering produces nothing exactly when every group is empty. */
  lemma {:induction false} NumberFromEmptyIff(gs: seq<Group>, next: nat)
    ensures NumberFrom(gs, next) == [] <==> forall g :: 0 <= g < |gs| ==> gs[g].contents == []
    decreases |gs|
  {
    if gs != [] {
      NumberFromEmptyIff(gs[1..], next + |gs[0].contents|);
      assert forall g :: 0 < g < |gs| ==> gs[g] == gs[1..][g - 1];
    }
  }

  /** The whole output is empty exactly when every segment is blank. */
  lemma ChunkPagesEmptyIff(pages: seq<Segment>, chunkChars: int, overlap: int)
    requires Progresses(chunkChars, overlap)
    ensures ChunkPages(pages, chunkChars, overlap) == [] <==> forall p :: 0 <= p < |pages| ==> AllSpace(pages[p].text)
  {
    var gs := Groups(pages, chunkChars, overlap);
    NumberFromEmptyIff(gs, 0);
    forall p | 0 <= p < |pages| ensures gs[p].contents == [] <==> AllSpace(pages[p].text) {
      GroupsAt(pages, chunkChars, overlap, p);
      SegmentContentsEmptyIff(pages[p].text, chunkChars, overlap);
    }
  }

  /** A group with no contents numbers to nothing and consumes no index. */
  lemma EmptyGroupNeutral(g1: seq<Group>, page: Option<int>, g2: seq<Group>)
    ensures NumberFrom(g1 + [Group(page, [])] + g2, 0) == NumberFrom(g1 + g2, 0)
  {
    var e := [Group(page, [])];
    NumberFromAppend(g1 + e, g2, 0);
    NumberFromAppend(g1, e, 0);
    NumberFromAppend(g1, g2, 0);
    assert NumberFrom(e, |NumberFrom(g1, 0)|) == [];
  }

  /** A blank segment anywhere in the input changes nothing in the output:
      it is skipped without consuming an index. */
  lemma BlankSegmentSkipped(p1: seq<Segment>, seg: Segment, p2: seq<Segment>, chunkChars: int, overlap: int)
    requires Progresses(chunkChars, overlap) && AllSpace(seg.text)
    ensures ChunkPages(p1 + [seg] + p2, chunkChars, overlap) == ChunkPages(p1 + p2, chunkChars, overlap)
  {
    var g1 := Groups(p1, chunkChars, overlap);
    var g2 := Groups(p2, chunkChars, overlap);
    GroupsAppend(p1 + [seg], p2, chunkChars, overlap);
    GroupsAppend(p1, [seg], chunkChars, overlap);
    GroupsAppend(p1, p2, chunkChars, overlap);
    SegmentContentsEmptyIff(seg.text, chunkChars, overlap);
    assert Groups([seg], chunkChars, overlap) == [Group(seg.page, [])];
    EmptyGroupNeutral(g1, seg.page, g2);
  }

  // ---------------------------------------------------------------------------
  // The loop as written

  /** One step of the inner loop: the window at `start`, stripped and kept
      when non-empty, then the windows from the next start unless this one
      reaches the end. */
  lemma StrippedWindowsStep(text: string, chunkChars: int, overlap: int, start: nat)
    requires Progresses(chunkChars, overlap) && start < |text|
    ensures var end := WindowEnd(|text|, chunkChars, start);
      var content := Strip(text[start..end]);
      StrippedWindows(text, WindowsFrom(|text|, chunkChars, overlap, start))
        == (if content != [] then [content] else [])
           + (if end >= |text| then [] else StrippedWindows(text, WindowsFrom(|text|, chunkChars, overlap, NextStart(end, overlap))))
  {
    var ws := WindowsFrom(|text|, chunkChars, overlap, start);
    var end := WindowEnd(|text|, chunkChars, start);
    assert ws[0] == Window(start, end);
    if end >= |text| {
      assert ws[1..] == [];
    } else {
      assert ws[1..] == WindowsFrom(|text|, chunkChars, overlap, NextStart(end, overlap));
    }
  }

  /** The inner `while` loop over one normalized text: a window from `start`,
      its stripped content kept when non-empty, a `break` once the window
      reaches the end, otherwise the next start `overlap` back. */
  method SegmentLoop(text: string, chunkChars: int, overlap: int) returns (contents: seq<string>)
    requires Progresses(chunkChars, overlap)
    ensures contents == StrippedWindows(text, Windows(|text|, chunkChars, overlap))
  {
    contents := [];
    var start: nat := 0;
    while start < |text|
      invariant contents + StrippedWindows(text, WindowsFrom(|text|, chunkChars, overlap, start))
        == StrippedWindows(text, Windows(|text|, chunkChars, overlap))
      decreases |text| - start
    {
      var end := WindowEnd(|text|, chunkChars, start);
      var content := Strip(text[start..end]);
      var kept := if content != [] then [content] else [];
      ghost var rest := if end >= |text| then [] else StrippedWindows(text, WindowsFrom(|text|, chunkChars, overlap, NextStart(end, overlap)));
      StrippedWindowsStep(text, chunkChars, overlap, start);
      ConcatAssoc(contents, kept, rest);
      contents := contents + kept;
      if end >= |text| {
        assert contents == contents + rest;
        break;
      }
      start := NextStart(end, overlap);
    }
  }

  lemma ConcatAssoc<T>(a: seq<T>, b: seq<T>, c: seq<T>)
    ensures a + (b + c) == (a + b) + c
  {
  }

  /** The body of the outer loop for one segment: normalize, skip when empty,
      otherwise run the window loop. */
  method SegmentStep(text: string, chunkChars: int, overlap: int) returns (contents: seq<string>)
    requires Progresses(chunkChars, overlap)
    ensures contents == SegmentContents(text, chunkChars, overlap)
  {
    var t := Normalize(text);
    if t == [] {
      return [];
    }
    contents := SegmentLoop(t, chunkChars, overlap);
  }

  lemma GroupsSnoc(pages: seq<Segment>, chunkChars: int, overlap: int, p: nat)
    requires Progresses(chunkChars, overlap) && p < |pages|
    ensures Groups(pages[..p + 1], chunkChars, overlap)
      == Groups(pages[..p], chunkChars, overlap) + [Group(pages[p].page, SegmentContents(pages[p].text, chunkChars, overlap))]
  {
    assert pages[..p + 1] == pages[..p] + [pages[p]];
    GroupsAppend(pages[..p], [pages[p]], chunkChars, overlap);
  }

  /** Numbering one more segment appends its contents, numbered from the
      count so far. */
  lemma NumberSnoc(pages: seq<Segment>, chunkChars: int, overlap: int, p: nat)
    requires Progresses(chunkChars, overlap) && p < |pages|
    ensures var before := NumberFrom(Groups(pages[..p], chunkChars, overlap), 0);
      NumberFrom(Groups(pages[..p + 1], chunkChars, overlap), 0)
        == before + Number(pages[p].page, SegmentContents(pages[p].text, chunkChars, overlap), |before|)
  {
    var g := Group(pages[p].page, SegmentContents(pages[p].text, chunkChars, overlap));
    GroupsSnoc(pages, chunkChars, overlap, p);
    NumberFromAppend(Groups(pages[..p], chunkChars, overlap), [g], 0);
    assert [g][1..] == [];
  }

  /** `chunk_pages` as the loop it is written as: a running index, a skip on
      an empty normalized text, and the inner window loop. It computes
      exactly `ChunkPages`. */
  method ChunkPagesLoop(pages: seq<Segment>, chunkChars: int, overlap: int) returns (chunks: seq<Chunk>)
    requires Progresses(chunkChars, overlap)
    ensures chunks == ChunkPages(pages, chunkChars, overlap)
  {
    chunks := [];
    var globalIdx: nat := 0;
    for p := 0 to |pages|
      invariant chunks == NumberFrom(Groups(pages[..p], chunkChars, overlap), 0)
      invariant globalIdx == |chunks|
    {
      var contents := SegmentStep(pages[p].text, chunkChars, overlap);
      NumberSnoc(pages, chunkChars, overlap, p);
      chunks := chunks + Number(pages[p].page, contents, globalIdx);
      globalIdx := globalIdx + |contents|;
    }
    assert pages[..|pages|] == pages;
  }
}

=== FILE: fallback.dfy ===
/** `build_fallback_answer`: the extractive answer given when no language
    model is available. It dispatches on keywords of the lower-cased question
    and quotes what it finds in the retrieved contexts. The regular-expression
    engine and `str.lower` are parameters: `search(pattern, text)` stands for
    `re.search(pattern, text, flags=re.IGNORECASE)` and returns the text of
    group 1 of the first match, or `None`. */
module FallbackAnswer {
  import opened Wrappers
  import opened Text

  /** The regular-expression engine, as seen by `_find_first`. */
  type Matcher = (string, string) -> Option<string>

  // ---------------------------------------------------------------------------
  // _find_first

  /** The stripped group of the first text, in list order, that matches. */
  function FindFirst(search: Matcher, pattern: string, texts: seq<string>): (r: Option<string>)
    ensures texts == [] ==> r == None
    ensures r.Some? ==> Trimmed(r.value)
  {
    if texts == [] then None
    else match search(pattern, texts[0])
      case Some(group) => Some(Strip(group))
      case None => FindFirst(search, pattern, texts[1..])
  }

  /** `texts[i]` matches and no earlier text does. */
  predicate FirstMatchAt(search: Matcher, pattern: string, texts: seq<string>, i: nat)
    requires i < |texts|
  {
    search(pattern, texts[i]).Some? && forall k :: 0 <= k < i ==> search(pattern, texts[k]).None?
  }

  /** `FindFirst` finds nothing exactly when no text matches, and otherwise
      returns the stripped group of the first matching text. */
  lemma {:induction false} FindFirstSpec(search: Matcher, pattern: string, texts: seq<string>)
    ensures FindFirst(search, pattern, texts).None? <==> forall i :: 0 <= i < |texts| ==> search(pattern, texts[i]).None?
    ensures forall i :: 0 <= i < |texts| && FirstMatchAt(search, pattern, texts, i) ==>
      FindFirst(search, pattern, texts) == Some(Strip(search(pattern, texts[i]).value))
    decreases |texts|
  {
    if texts != [] {
      FindFirstSpec(search, pattern, texts[1..]);
      forall i | 0 < i < |texts| ensures texts[1..][i - 1] == texts[i] { }
      if search(pattern, texts[0]).None? {
        forall i | 0 < i < |texts| && FirstMatchAt(search, pattern, texts, i)
          ensures FirstMatchAt(search, pattern, texts[1..], i - 1)
        {
          forall k | 0 <= k < i - 1 ensures search(pattern, texts[1..][k]).None? {
            assert texts[1..][k] == texts[k + 1];
          }
        }
        if forall i :: 0 < i < |texts| ==> search(pattern, texts[i]).None? {
          forall i | 0 <= i < |texts[1..]| ensures search(pattern, texts[1..][i]).None? {
            assert texts[1..][i] == texts[i + 1];
          }
        }
      }
    }
  }

  /** A match counts only when its stripped text is not empty: the callers
      test the result's truth value, and `""` is false. */
  predicate Present(found: Option<string>) {
    found.Some? && found.value != []
  }

  // ---------------------------------------------------------------------------
  // The components listed by the architecture and port answers

  datatype Component = Backend | Frontend | Database {
    /** The position in which the answers list the component. */
    function Rank(): nat {
      match this
      case Backend => 0
      case Frontend => 1
      case Database => 2
    }

    function Label(): string {
      match this
      case Backend => "Backend"
      case Frontend => "Frontend"
      case Database => "Database"
    }
  }

  /** Every component, in listing order. */
  const Components: seq<Component> := [Backend, Frontend, Database]

  /** What was found for each component, listed in order of `cs`, keeping
      only the components with a present match. */
  function EntriesFrom(found: Component -> Option<string>, cs: seq<Component>): (es: seq<(Component, string)>)
    ensures |es| <= |cs|
    ensures forall i :: 0 <= i < |es| ==> es[i].0 in cs
  {
    if cs == [] then []
    else (if Present(found(cs[0])) then [(cs[0], found(cs[0]).value)] else []) + EntriesFrom(found, cs[1..])
  }

  function Entries(found: Component -> Option<string>): seq<(Component, string)> {
    EntriesFrom(found, Components)
  }

  /** Each entry is a component with a present match, and it carries that match. */
  predicate EntriesFaithful(found: Component -> Option<string>, es: seq<(Component, string)>) {
    forall i :: 0 <= i < |es| ==> Present(found(es[i].0)) && es[i].1 == found(es[i].0).value
  }

  /** Entries go strictly by rank, so no component is listed twice. */
  predicate RankOrdered(es: seq<(Component, string)>) {
    forall i, j :: 0 <= i < j < |es| ==> es[i].0.Rank() < es[j].0.Rank()
  }

  predicate Listed(es: seq<(Component, string)>, c: Component) {
    exists i :: 0 <= i < |es| && es[i].0 == c
  }

  /** What one component contributes to the entries. */
  function EntryOf(found: Component -> Option<string>, c: Component): seq<(Component, string)> {
    if Present(found(c)) then [(c, found(c).value)] else []
  }

  lemma EntriesUnfold(found: Component -> Option<string>)
    ensures Entries(found) == EntryOf(found, Backend) + EntryOf(found, Frontend) + EntryOf(found, Database)
  {
    assert Components[1..] == [Frontend, Database];
    assert Components[1..][1..] == [Database];
    assert Components[1..][1..][1..] == [];
  }

  lemma EntriesFaithfulOrdered(found: Component -> Option<string>)
    ensures EntriesFaithful(found, Entries(found))
    ensures RankOrdered(Entries(found))
  {
    EntriesUnfold(found);
  }

  lemma EntriesListed(found: Component -> Option<string>)
    ensures forall c: Component :: Listed(Entries(found), c) <==> Present(found(c))
  {
    var es := Entries(found);
    var b := EntryOf(found, Backend);
    var f := EntryOf(found, Frontend);
    EntriesUnfold(found);
    forall c: Component | Present(found(c)) ensures Listed(es, c) {
      match c
      case Backend => assert es[0].0 == c;
      case Frontend => assert es[|b|].0 == c;
      case Database => assert es[|b| + |f|].0 == c;
    }
    EntriesFaithfulOrdered(found);
  }

  /** The listed entries are exactly the components with a present match,
      each with its match, in the order Backend, Frontend, Database. */
  lemma EntriesSpec(found: Component -> Option<string>)
    ensures EntriesFaithful(found, Entries(found))
    ensures RankOrdered(Entries(found))
    ensures forall c: Component :: Listed(Entries(found), c) <==> Present(found(c))
    ensures Entries(found) == [] <==> forall c: Component :: !Present(found(c))
  {
    EntriesFaithfulOrdered(found);
    EntriesListed(found);
    var es := Entries(found);
    if es == [] {
      forall c: Component ensures !Present(found(c)) {
        assert !Listed(es, c);
      }
    } else {
      assert Listed(es, es[0].0);
    }
  }

  /** One listed line: `- Backend: <match>`. */
  function Line(e: (Component, string)): string {
    "- " + e.0.Label() + ": " + e.1
  }

  function Lines(es: seq<(Component, string)>): (ls: seq<string>)
    ensures |ls| == |es|
    ensures forall i :: 0 <= i < |es| ==> ls[i] == Line(es[i])
  {
    seq(|es|, i requires 0 <= i < |es| => Line(es[i]))
  }

  // ---------------------------------------------------------------------------
  // Patterns and headers

  /** `<component>:` then whitespace, capturing the rest of the line. */
  function ArchitecturePattern(c: Component): string {
    match c
    case Backend => "backend:\\s*([^\\n]+)"
    case Frontend => "frontend:\\s*([^\\n]+)"
    case Database => "database:\\s*([^\\n]+)"
  }

  /** `<component>:` then, lazily, anything up to `(port <digits>)`,
      capturing the digits. */
  function PortPattern(c: Component): string {
    match c
    case Backend => "backend:\\s*.*?\\(port\\s*([0-9]+)\\)"
    case Frontend => "frontend:\\s*.*?\\(port\\s*([0-9]+)\\)"
    case Database => "database:\\s*.*?\\(port\\s*([0-9]+)\\)"
  }

  /** `post /chat`, capturing from `question` to the end of the line. */
  const ChatPattern := "post\\s*/chat.*?(question.*)"

  const ArchitectureKeywords: seq<string> := ["kiến trúc", "thành phần", "architecture", "components"]

  const ArchitectureHeader := "Kiến trúc dự án gồm:\n"
  const PortHeader := "Các port đang dùng:\n"
  const ChatHeader := "Thông tin về /chat theo tài liệu:\n"
  const DefaultHeader := "Mình chưa bật LLM để tổng hợp, " + "nên trả về trích đoạn liên quan nhất:\n\n"

  /** The longest quoted snippet. */
  const SnippetLimit := 300

  // ---------------------------------------------------------------------------
  // The default snippet

  /** The index of the first `'\n'` in `s`, if any. */
  function FirstNewline(s: string): (r: Option<nat>)
    ensures r.Some? ==> r.value < |s| && s[r.value] == '\n'
    ensures forall k :: 0 <= k < |s| && (r.None? || k < r.value) ==> s[k] != '\n'
  {
    if s == [] then None
    else if s[0] == '\n' then Some(0)
    else match FirstNewline(s[1..])
      case Some(i) => Some(i + 1)
      case None => None
  }

  /** `s.split("\n", 1)[-1]`: what follows the first line break, or all of
      `s` when there is none. */
  function AfterFirstLine(s: string): string {
    match FirstNewline(s)
    case Some(i) => s[i + 1..]
    case None => s
  }

  /** Splitting at the first line break loses only the first line and the
      break: `s` is a newline-free head, then (if there was a break) the
      break and the rest. */
  lemma AfterFirstLineSplits(s: string)
    ensures FirstNewline(s).None? ==> AfterFirstLine(s) == s
    ensures FirstNewline(s).Some? ==>
      var i := FirstNewline(s).value;
      s == s[..i] + "\n" + AfterFirstLine(s) && forall k :: 0 <= k < i ==> s[k] != '\n'
    ensures OccursAt(AfterFirstLine(s), s, |s| - |AfterFirstLine(s)|)
  {
    var rest := AfterFirstLine(s);
    match FirstNewline(s)
    case Some(i) =>
      assert rest == s[i + 1..];
      assert s == s[..i] + "\n" + rest;
      assert s[|s| - |rest|..|s| - |rest| + |rest|] == rest;
    case None =>
      assert s[0..|s|] == s;
  }

  /** `best.split("\n", 1)[-1][:300]`, with `best` the top context or `""`. */
  function Snippet(contexts: seq<string>): string {
    var best := if contexts == [] then "" else contexts[0];
    var rest := AfterFirstLine(best);
    rest[..if |rest| < SnippetLimit then |rest| else SnippetLimit]
  }

  /** The snippet never exceeds 300 characters, is a piece of the top context
      cut after its first line, keeps all of that part when it is short and
      exactly 300 characters of it otherwise. */
  lemma SnippetSpec(contexts: seq<string>)
    ensures |Snippet(contexts)| <= SnippetLimit
    ensures contexts == [] ==> Snippet(contexts) == ""
    ensures contexts != [] ==> StartsWith(AfterFirstLine(contexts[0]), Snippet(contexts))
    ensures contexts != [] ==> Contains(contexts[0], Snippet(contexts))
    ensures contexts != [] && |AfterFirstLine(contexts[0])| <= SnippetLimit ==> Snippet(contexts) == AfterFirstLine(contexts[0])
    ensures contexts != [] && SnippetLimit < |AfterFirstLine(contexts[0])| ==> |Snippet(contexts)| == SnippetLimit
  {
    if contexts != [] {
      var best := contexts[0];
      var rest := AfterFirstLine(best);
      var snip := Snippet(contexts);
      AfterFirstLineSplits(best);
      var o := |best| - |rest|;
      assert OccursAt(snip, rest, 0);
      OccursAtTrans(snip, rest, best, 0, o);
      OccursImpliesContains(best, snip, o);
    }
  }

  // ---------------------------------------------------------------------------
  // build_fallback_answer

  /** `any(k in q for k in [...])` on the architecture keywords. */
  predicate AsksArchitecture(q: string) {
    exists i :: 0 <= i < |ArchitectureKeywords| && Contains(q, ArchitectureKeywords[i])
  }

  predicate AsksPorts(q: string) {
    Contains(q, "port")
  }

  predicate AsksChat(q: string) {
    Contains(q, "/chat") || Contains(q, "endpoint")
  }

  /** What `_find_first` returns for each component under `pattern`. */
  function FoundBy(search: Matcher, pattern: Component -> string, contexts: seq<string>): Component -> Option<string> {
    c => FindFirst(search, pattern(c), contexts)
  }

  function ArchitectureEntries(search: Matcher, contexts: seq<string>): seq<(Component, string)> {
    Entries(FoundBy(search, ArchitecturePattern, contexts))
  }

  function PortEntries(search: Matcher, contexts: seq<string>): seq<(Component, string)> {
    Entries(FoundBy(search, PortPattern, contexts))
  }

  function ChatLine(search: Matcher, contexts: seq<string>): Option<string> {
    FindFirst(search, ChatPattern, contexts)
  }

  /** The question falls into the architecture branch and it finds something. */
  predicate ArchitectureAnswered(search: Matcher, q: string, contexts: seq<string>) {
    AsksArchitecture(q) && ArchitectureEntries(search, contexts) != []
  }

  predicate PortsAnswered(search: Matcher, q: string, contexts: seq<string>) {
    AsksPorts(q) && PortEntries(search, contexts) != []
  }

  predicate ChatAnswered(search: Matcher, q: string, contexts: seq<string>) {
    AsksChat(q) && Present(ChatLine(search, contexts))
  }

  /** `build_fallback_answer(question, contexts)`, with `lower` standing for
      `str.lower`. A branch whose search comes back empty falls through to
      the next one; the last resort quotes the top context. */
  function BuildFallbackAnswer(search: Matcher, lower: string -> string, question: string, contexts: seq<string>): (answer: string)
    ensures StartsWith(answer, ArchitectureHeader) || StartsWith(answer, PortHeader)
         || StartsWith(answer, ChatHeader) || StartsWith(answer, DefaultHeader)
  {
    var q := lower(question);
    if ArchitectureAnswered(search, q, contexts) then
      ArchitectureHeader + JoinWith("\n", Lines(ArchitectureEntries(search, contexts)))
    else if PortsAnswered(search, q, contexts) then
      PortHeader + JoinWith("\n", Lines(PortEntries(search, contexts)))
    else if ChatAnswered(search, q, contexts) then
      ChatHeader + ChatLine(search, contexts).value
    else
      DefaultHeader + Snippet(contexts)
  }

  lemma FirstOfPrefix(s: string, h: string)
    requires h != [] && StartsWith(s, h)
    ensures s[0] == h[0]
  {
    assert s[..|h|][0] == s[0];
  }

  /** The four headers start with different characters, so an answer's
      header tells which branch produced it. */
  lemma HeadersDistinct(s: string)
    ensures !(StartsWith(s, ArchitectureHeader) && StartsWith(s, PortHeader))
    ensures !(StartsWith(s, ArchitectureHeader) && StartsWith(s, ChatHeader))
    ensures !(StartsWith(s, ArchitectureHeader) && StartsWith(s, DefaultHeader))
    ensures !(StartsWith(s, PortHeader) && StartsWith(s, ChatHeader))
    ensures !(StartsWith(s, PortHeader) && StartsWith(s, DefaultHeader))
    ensures !(StartsWith(s, ChatHeader) && StartsWith(s, DefaultHeader))
  {
    assert ArchitectureHeader[0] == 'K';
    assert PortHeader[0] == 'C';
    assert ChatHeader[0] == 'T';
    assert DefaultHeader[0] == 'M';
    if StartsWith(s, ArchitectureHeader) {
      FirstOfPrefix(s, ArchitectureHeader);
    }
    if StartsWith(s, PortHeader) {
      FirstOfPrefix(s, PortHeader);
    }
    if StartsWith(s, ChatHeader) {
      FirstOfPrefix(s, ChatHeader);
    }
    if StartsWith(s, DefaultHeader) {
      FirstOfPrefix(s, DefaultHeader);
    }
  }

  /** Branch priority: architecture before ports before `/chat`, each taken
      only when its keywords are in the lower-cased question and its search
      finds something, and the default answer otherwise. */
  lemma BranchPriority(search: Matcher, lower: string -> string, question: string, contexts: seq<string>)
    ensures var answer := BuildFallbackAnswer(search, lower, question, contexts);
      var q := lower(question);
      && (StartsWith(answer, ArchitectureHeader) <==> ArchitectureAnswered(search, q, contexts))
      && (StartsWith(answer, PortHeader) <==> !ArchitectureAnswered(search, q, contexts) && PortsAnswered(search, q, contexts))
      && (StartsWith(answer, ChatHeader) <==>
            !ArchitectureAnswered(search, q, contexts) && !PortsAnswered(search, q, contexts) && ChatAnswered(search, q, contexts))
      && (StartsWith(answer, DefaultHeader) <==>
            !ArchitectureAnswered(search, q, contexts) && !PortsAnswered(search, q, contexts) && !ChatAnswered(search, q, contexts))
  {
    var answer := BuildFallbackAnswer(search, lower, question, contexts);
    HeadersDistinct(answer);
    var q := lower(question);
    if ArchitectureAnswered(search, q, contexts) {
      assert StartsWith(answer, ArchitectureHeader);
    } else if PortsAnswered(search, q, contexts) {
      assert StartsWith(answer, PortHeader);
    } else if ChatAnswered(search, q, contexts) {
      assert StartsWith(answer, ChatHeader);
    } else {
      assert StartsWith(answer, DefaultHeader);
    }
  }

  /** The architecture answer lists, one per line under its header, exactly
      the components whose pattern found a non-empty match, each with that
      match, in the order Backend, Frontend, Database. */
  lemma ArchitectureAnswerLists(search: Matcher, lower: string -> string, question: string, contexts: seq<string>)
    requires ArchitectureAnswered(search, lower(question), contexts)
    ensures var es := ArchitectureEntries(search, contexts);
      && BuildFallbackAnswer(search, lower, question, contexts) == ArchitectureHeader + JoinWith("\n", Lines(es))
      && EntriesFaithful(FoundBy(search, ArchitecturePattern, contexts), es)
      && RankOrdered(es)
      && forall c: Component :: Listed(es, c) <==> Present(FindFirst(search, ArchitecturePattern(c), contexts))
  {
    var found := FoundBy(search, ArchitecturePattern, contexts);
    EntriesSpec(found);
    forall c: Component ensures found(c) == FindFirst(search, ArchitecturePattern(c), contexts) { }
  }

  /** The same for the port answer, with the port numbers as the matches. */
  lemma PortAnswerLists(search: Matcher, lower: string -> string, question: string, contexts: seq<string>)
    requires !ArchitectureAnswered(search, lower(question), contexts)
    requires PortsAnswered(search, lower(question), contexts)
    ensures var es := PortEntries(search, contexts);
      && BuildFallbackAnswer(search, lower, question, contexts) == PortHeader + JoinWith("\n", Lines(es))
      && EntriesFaithful(FoundBy(search, PortPattern, contexts), es)
      && RankOrdered(es)
      && forall c: Component :: Listed(es, c) <==> Present(FindFirst(search, PortPattern(c), contexts))
  {
    var found := FoundBy(search, PortPattern, contexts);
    EntriesSpec(found);
    forall c: Component ensures found(c) == FindFirst(search, PortPattern(c), contexts) { }
  }

  lemma NothingFoundWithoutContexts(search: Matcher, pattern: Component -> string)
    ensures Entries(FoundBy(search, pattern, [])) == []
  {
    var found := FoundBy(search, pattern, []);
    assert found(Backend) == None && found(Frontend) == None && found(Database) == None;
    EntriesUnfold(found);
  }

  /** Whatever the question, an empty context list yields just the default
      header: nothing is searched, and the snippet is empty. */
  lemma NoContextsDefaultAnswer(search: Matcher, lower: string -> string, question: string)
    ensures BuildFallbackAnswer(search, lower, question, []) == DefaultHeader
  {
    var q := lower(question);
    NothingFoundWithoutContexts(search, ArchitecturePattern);
    NothingFoundWithoutContexts(search, PortPattern);
    assert !ChatAnswered(search, q, []);
    assert Snippet([]) == "";
    assert DefaultHeader + "" == DefaultHeader;
  }

  /** The default answer quotes at most 300 characters of the top context,
      taken after its first line: nothing in it is made up. */
  lemma DefaultAnswerQuotes(search: Matcher, lower: string -> string, question: string, contexts: seq<string>)
    requires StartsWith(BuildFallbackAnswer(search, lower, question, contexts), DefaultHeader)
    ensures var answer := BuildFallbackAnswer(search, lower, question, contexts);
      var snippet := answer[|DefaultHeader|..];
      && |snippet| <= SnippetLimit
      && (contexts == [] ==> snippet == "")
      && (contexts != [] ==> Contains(contexts[0], snippet) && StartsWith(AfterFirstLine(contexts[0]), snippet))
      && (contexts != [] && |AfterFirstLine(contexts[0])| <= SnippetLimit ==> snippet == AfterFirstLine(contexts[0]))
      && (contexts != [] && SnippetLimit < |AfterFirstLine(contexts[0])| ==> |snippet| == SnippetLimit)
  {
    BranchPriority(search, lower, question, contexts);
    SnippetSpec(contexts);
    var answer := BuildFallbackAnswer(search, lower, question, contexts);
    assert answer == DefaultHeader + Snippet(contexts);
    assert answer[|DefaultHeader|..] == Snippet(contexts);
  }

  /** The `/chat` answer quotes the first stripped, non-empty capture of the
      chat pattern. */
  lemma ChatAnswerQuotes(search: Matcher, lower: string -> string, question: string, contexts: seq<string>)
    requires StartsWith(BuildFallbackAnswer(search, lower, question, contexts), ChatHeader)
    ensures var line := FindFirst(search, ChatPattern, contexts);
      && Present(line) && Trimmed(line.value)
      && BuildFallbackAnswer(search, lower, question, contexts) == ChatHeader + line.value
  {
    BranchPriority(search, lower, question, contexts);
  }
}

=== FILE: parsing.dfy ===
/** `parse_file`: turning an uploaded file into page-tagged text segments.
    The PDF and DOCX readers and the file system are outside the model; what
    they hand back is the `FileSource` input. */
module Parsing {
  import opened Wrappers
  import opened Text
  import opened Records

  /** The one error `parse_file` raises. */
  datatype ParseError = UnsupportedFileType(ext: string)

  /** What the readers return for a file: the PDF reader's per-page
      `extract_text()` (which may give nothing), the DOCX paragraphs' text,
      and the UTF-8 text of a plain file. Only the part matching the file's
      extension is consulted. */
  datatype FileSource = FileSource(pdfPages: seq<Option<string>>, paragraphs: seq<string>, text: string)

  // ---------------------------------------------------------------------------
  // The extension

  /** Python's `s.rfind(c)`: the last index holding `c`, or -1. */
  function RFind(s: string, c: char): (i: int)
    ensures -1 <= i < |s|
    ensures 0 <= i ==> s[i] == c
    ensures forall k :: i < k < |s| ==> s[k] != c
  {
    if s == [] then -1
    else if s[|s| - 1] == c then |s| - 1
    else RFind(s[..|s| - 1], c)
  }

  /** `Path.suffix` of the final path component `name`: from the last dot
      on, provided that dot is neither the first nor the last character. */
  function Suffix(name: string): (x: string)
    ensures x == [] || (2 <= |x| < |name| && x[0] == '.' && name[|name| - |x|..] == x
                        && forall k :: 0 < k < |x| ==> x[k] != '.')
  {
    var i := RFind(name, '.');
    if 0 < i < |name| - 1 then name[i..] else ""
  }

  /** Splitting off an extension and putting it back: a non-empty stem
      followed by a dot and a dot-free non-empty tail has exactly that
      suffix. */
  lemma SuffixOfStemAndExt(stem: string, tail: string)
    requires stem != [] && tail != []
    requires forall k :: 0 <= k < |tail| ==> tail[k] != '.'
    ensures Suffix(stem + ['.'] + tail) == ['.'] + tail
  {
    var name := stem + ['.'] + tail;
    var i := RFind(name, '.');
    assert name[|stem|] == '.';
    assert i == |stem|;
    assert name[i..] == ['.'] + tail;
  }

  /** `str.lower()` restricted to ASCII letters. */
  function LowerChar(c: char): char {
    if 'A' <= c <= 'Z' then (c as int + 32) as char else c
  }

  function AsciiLower(s: string): (r: string)
    ensures |r| == |s|
    ensures forall k :: 0 <= k < |s| ==> r[k] == LowerChar(s[k])
  {
    if s == [] then [] else [LowerChar(s[0])] + AsciiLower(s[1..])
  }

  /** Lowering is idempotent and only touches upper-case ASCII letters. */
  lemma LowerCharFacts(c: char)
    ensures LowerChar(LowerChar(c)) == LowerChar(c)
    ensures LowerChar(c) != c <==> 'A' <= c <= 'Z'
    ensures LowerChar(c) == '.' <==> c == '.'
  {
  }

  lemma AsciiLowerSlice(s: string, i: nat)
    requires i <= |s|
    ensures AsciiLower(s)[i..] == AsciiLower(s[i..])
  {
  }

  /** Lowering does not move the last dot. */
  lemma {:induction false} RFindDotLower(s: string)
    ensures RFind(AsciiLower(s), '.') == RFind(s, '.')
    decreases |s|
  {
    if s != [] {
      var l := AsciiLower(s);
      LowerCharFacts(s[|s| - 1]);
      assert l[..|l| - 1] == AsciiLower(s[..|s| - 1]);
      RFindDotLower(s[..|s| - 1]);
    }
  }

  /** Taking the suffix commutes with lowering the name. */
  lemma SuffixLower(name: string)
    ensures Suffix(AsciiLower(name)) == AsciiLower(Suffix(name))
  {
    RFindDotLower(name);
    var i := RFind(name, '.');
    if 0 < i < |name| - 1 {
      AsciiLowerSlice(name, i);
    }
  }

  /** The extensions `parse_file` accepts, compared after lowering. */
  predicate Supported(ext: string) {
    ext == ".pdf" || ext == ".docx" || ext == ".txt" || ext == ".md"
  }

  /** The lowered extension `parse_file` dispatches on. */
  function Extension(name: string): (ext: string)
    ensures forall k :: 0 <= k < |ext| ==> !('A' <= ext[k] <= 'Z')
  {
    AsciiLower(Suffix(name))
  }

  // ---------------------------------------------------------------------------
  // The three readers

  /** `extract_text() or ""`. */
  function PageText(extracted: Option<string>): string {
    extracted.GetOr("")
  }

  /** Each page's `extract_text() or ""`, stripped. */
  function StrippedPages(pages: seq<Option<string>>): (texts: seq<string>)
    ensures |texts| == |pages|
    ensures forall j :: 0 <= j < |pages| ==> texts[j] == Strip(PageText(pages[j]))
  {
    seq(|pages|, j requires 0 <= j < |pages| => Strip(PageText(pages[j])))
  }

  /** The PDF loop over already stripped page texts, numbering them from
      `first` and dropping the empty ones. */
  function PdfSegmentsFrom(texts: seq<string>, first: nat): (segs: seq<Segment>)
    ensures |segs| <= |texts|
    decreases |texts|
  {
    if texts == [] then []
    else (if texts[0] != [] then [Segment(Some(first), texts[0])] else []) + PdfSegmentsFrom(texts[1..], first + 1)
  }

  /** The PDF branch: pages numbered from 1, as `enumerate(..., start=1)`
      does, each stripped, the blank ones dropped. */
  function PdfSegments(pages: seq<Option<string>>): seq<Segment> {
    PdfSegmentsFrom(StrippedPages(pages), 1)
  }

  /** Segment `s` is entry `n - first` of `texts`, tagged `n`, and not empty. */
  predicate TextSegmentOf(s: Segment, texts: seq<string>, first: nat) {
    && s.page.Some?
    && first <= s.page.value < first + |texts|
    && s.text == texts[s.page.value - first]
    && s.text != []
  }

  /** Every segment the loop emits is a non-empty text tagged with its number. */
  lemma {:induction false} PdfSegmentsSound(texts: seq<string>, first: nat)
    ensures forall i :: 0 <= i < |PdfSegmentsFrom(texts, first)| ==> TextSegmentOf(PdfSegmentsFrom(texts, first)[i], texts, first)
    decreases |texts|
  {
    if texts != [] {
      var segs := PdfSegmentsFrom(texts, first);
      var head := if texts[0] != [] then [Segment(Some(first), texts[0])] else [];
      var rest := PdfSegmentsFrom(texts[1..], first + 1);
      assert segs == head + rest;
      PdfSegmentsSound(texts[1..], first + 1);
      forall i | 0 <= i < |segs| ensures TextSegmentOf(segs[i], texts, first) {
        if i >= |head| {
          var s := rest[i - |head|];
          assert segs[i] == s;
          assert TextSegmentOf(s, texts[1..], first + 1);
          assert texts[1..][s.page.value - (first + 1)] == texts[s.page.value - first];
        }
      }
    }
  }

  /** Segments come in strictly increasing page order. */
  predicate PagesIncrease(segs: seq<Segment>) {
    forall i, j :: 0 <= i < j < |segs| ==> segs[i].page.Some? && segs[j].page.Some? && segs[i].page.value < segs[j].page.value
  }

  lemma {:induction false} PdfSegmentsOrdered(texts: seq<string>, first: nat)
    ensures PagesIncrease(PdfSegmentsFrom(texts, first))
    decreases |texts|
  {
    if texts != [] {
      var segs := PdfSegmentsFrom(texts, first);
      var head := if texts[0] != [] then [Segment(Some(first), texts[0])] else [];
      var rest := PdfSegmentsFrom(texts[1..], first + 1);
      assert segs == head + rest;
      PdfSegmentsOrdered(texts[1..], first + 1);
      PdfSegmentsSound(texts[1..], first + 1);
      forall i, j | 0 <= i < j < |segs|
        ensures segs[i].page.Some? && segs[j].page.Some? && segs[i].page.value < segs[j].page.value
      {
        assert segs[j] == rest[j - |head|];
        assert TextSegmentOf(rest[j - |head|], texts[1..], first + 1);
        if i >= |head| {
          assert segs[i] == rest[i - |head|];
        }
      }
    }
  }

  /** A non-empty text yields a segment tagged with its number. */
  lemma {:induction false} PdfSegmentsComplete(texts: seq<string>, first: nat, j: nat)
    requires j < |texts| && texts[j] != []
    ensures exists i :: 0 <= i < |PdfSegmentsFrom(texts, first)| && PdfSegmentsFrom(texts, first)[i].page == Some(first + j)
    decreases j
  {
    var segs := PdfSegmentsFrom(texts, first);
    var head := if texts[0] != [] then [Segment(Some(first), texts[0])] else [];
    var rest := PdfSegmentsFrom(texts[1..], first + 1);
    assert segs == head + rest;
    if j == 0 {
      assert segs[0].page == Some(first);
    } else {
      assert texts[1..][j - 1] == texts[j];
      PdfSegmentsComplete(texts[1..], first + 1, j - 1);
      var i :| 0 <= i < |rest| && rest[i].page == Some(first + 1 + (j - 1));
      assert segs[|head| + i] == rest[i];
    }
  }

  /** A PDF segment is page `n` of the document, stripped and not blank. */
  predicate PdfSegmentOf(s: Segment, pages: seq<Option<string>>) {
    && s.page.Some?
    && 1 <= s.page.value <= |pages|
    && s.text == Strip(PageText(pages[s.page.value - 1]))
    && s.text != []
  }

  /** The PDF branch's segments are the document's non-blank pages,
      stripped, numbered from 1, in page order. */
  lemma PdfSegmentsSpec(pages: seq<Option<string>>)
    ensures forall i :: 0 <= i < |PdfSegments(pages)| ==> PdfSegmentOf(PdfSegments(pages)[i], pages)
    ensures PagesIncrease(PdfSegments(pages))
  {
    var texts := StrippedPages(pages);
    var segs := PdfSegments(pages);
    PdfSegmentsSound(texts, 1);
    PdfSegmentsOrdered(texts, 1);
    forall i | 0 <= i < |segs| ensures PdfSegmentOf(segs[i], pages) {
      assert TextSegmentOf(segs[i], texts, 1);
    }
  }

  /** Entry `j` yields a segment exactly when it is not empty. */
  lemma PdfTextKeptIff(texts: seq<string>, first: nat, j: nat)
    requires j < |texts|
    ensures texts[j] != [] <==> exists i :: 0 <= i < |PdfSegmentsFrom(texts, first)| && PdfSegmentsFrom(texts, first)[i].page == Some(first + j)
  {
    var segs := PdfSegmentsFrom(texts, first);
    if texts[j] != [] {
      PdfSegmentsComplete(texts, first, j);
    }
    if i :| 0 <= i < |segs| && segs[i].page == Some(first + j) {
      PdfSegmentsSound(texts, first);
      assert TextSegmentOf(segs[i], texts, first);
    }
  }

  /** Page `n` appears among the PDF segments exactly when its stripped
      text is not empty. */
  lemma PdfPageKeptIff(pages: seq<Option<string>>, n: nat)
    requires 1 <= n <= |pages|
    ensures Strip(PageText(pages[n - 1])) != [] <==> exists i :: 0 <= i < |PdfSegments(pages)| && PdfSegments(pages)[i].page == Some(n)
  {
    var texts := StrippedPages(pages);
    assert texts[n - 1] == Strip(PageText(pages[n - 1]));
    assert PdfSegments(pages) == PdfSegmentsFrom(texts, 1);
    PdfTextKeptIff(texts, 1, n - 1);
  }

  /** The paragraphs the DOCX branch keeps: those with non-blank text. */
  function NonBlank(paragraphs: seq<string>): (kept: seq<string>)
    ensures |kept| <= |paragraphs|
  {
    if paragraphs == [] then []
    else (if Strip(paragraphs[0]) != [] then [paragraphs[0]] else []) + NonBlank(paragraphs[1..])
  }

  /** The filter keeps a paragraph exactly when it is not blank. */
  lemma {:induction false} NonBlankMembers(paragraphs: seq<string>)
    ensures forall q :: q in NonBlank(paragraphs) <==> q in paragraphs && Strip(q) != []
    ensures NonBlank(paragraphs) == [] <==> forall i :: 0 <= i < |paragraphs| ==> AllSpace(paragraphs[i])
    decreases |paragraphs|
  {
    if paragraphs != [] {
      NonBlankMembers(paragraphs[1..]);
      StripDropsOnlySpace(paragraphs[0]);
      assert paragraphs == [paragraphs[0]] + paragraphs[1..];
      forall i | 0 < i < |paragraphs| ensures paragraphs[i] == paragraphs[1..][i - 1] { }
      if NonBlank(paragraphs) == [] {
        assert NonBlank(paragraphs[1..]) == [];
        forall i | 0 <= i < |paragraphs| ensures AllSpace(paragraphs[i]) {
          if i > 0 {
            assert paragraphs[i] == paragraphs[1..][i - 1];
          }
        }
      }
    }
  }

  /** The filter keeps document order: filtering two runs of paragraphs one
      after the other gives the kept paragraphs of the first run, then those
      of the second. */
  lemma {:induction false} NonBlankAppend(a: seq<string>, b: seq<string>)
    ensures NonBlank(a + b) == NonBlank(a) + NonBlank(b)
    decreases |a|
  {
    if a != [] {
      assert (a + b)[0] == a[0];
      assert (a + b)[1..] == a[1..] + b;
      NonBlankAppend(a[1..], b);
    } else {
      assert a + b == b;
    }
  }

  /** The DOCX branch's text: the non-blank paragraphs joined by newlines,
      then stripped. */
  function DocxText(paragraphs: seq<string>): (t: string)
    ensures Trimmed(t)
  {
    Strip(JoinWith("\n", NonBlank(paragraphs)))
  }

  /** The DOCX branch: one page-less segment, or none when the text is empty. */
  function DocxSegments(paragraphs: seq<string>): seq<Segment> {
    var t := DocxText(paragraphs);
    if t != [] then [Segment(None, t)] else []
  }

  /** Every non-blank paragraph reaches the document text, stripped. */
  lemma DocxKeepsParagraph(paragraphs: seq<string>, i: nat)
    requires i < |paragraphs| && Strip(paragraphs[i]) != []
    ensures Contains(DocxText(paragraphs), Strip(paragraphs[i]))
  {
    var kept := NonBlank(paragraphs);
    NonBlankMembers(paragraphs);
    var q := paragraphs[i];
    assert q in kept;
    var j :| 0 <= j < |kept| && kept[j] == q;
    JoinPlacesParts("\n", kept, j);
    StripKeepsStrippedPart(q, JoinWith("\n", kept), JoinOffset("\n", kept, j));
  }

  /** A DOCX document yields nothing exactly when every paragraph is blank. */
  lemma DocxEmptyIff(paragraphs: seq<string>)
    ensures DocxSegments(paragraphs) == [] <==> forall i :: 0 <= i < |paragraphs| ==> AllSpace(paragraphs[i])
  {
    NonBlankMembers(paragraphs);
    if i :| 0 <= i < |paragraphs| && !AllSpace(paragraphs[i]) {
      StripDropsOnlySpace(paragraphs[i]);
      DocxKeepsParagraph(paragraphs, i);
      ContainsImpliesOccurs(DocxText(paragraphs), Strip(paragraphs[i]));
    }
  }

  /** The text branch: the whole file stripped, or nothing when blank. */
  function TextSegments(text: string): (segs: seq<Segment>)
    ensures segs == [] <==> AllSpace(text)
    ensures |segs| <= 1
    ensures forall i :: 0 <= i < |segs| ==> segs[i] == Segment(None, Strip(text))
  {
    StripDropsOnlySpace(text);
    var t := Strip(text);
    if t != [] then [Segment(None, t)] else []
  }

  // ---------------------------------------------------------------------------
  // parse_file

  /** Every segment's text is non-empty and carries no surrounding whitespace. */
  predicate CleanSegments(segs: seq<Segment>) {
    forall i :: 0 <= i < |segs| ==> segs[i].text != [] && Trimmed(segs[i].text)
  }

  /** `parse_file` on a file whose final path component is `name`. */
  function ParseFile(name: string, source: FileSource): (r: Result<seq<Segment>, ParseError>)
    ensures r.Failure? <==> !Supported(Extension(name))
    ensures r.Failure? ==> r.error == UnsupportedFileType(Extension(name))
    ensures Extension(name) == ".pdf" ==> r == Success(PdfSegments(source.pdfPages))
    ensures Extension(name) == ".docx" ==> r == Success(DocxSegments(source.paragraphs))
    ensures Extension(name) in {".txt", ".md"} ==> r == Success(TextSegments(source.text))
  {
    var ext := Extension(name);
    if ext == ".pdf" then Success(PdfSegments(source.pdfPages))
    else if ext == ".docx" then Success(DocxSegments(source.paragraphs))
    else if ext == ".txt" || ext == ".md" then Success(TextSegments(source.text))
    else Failure(UnsupportedFileType(ext))
  }

  /** Whatever the branch, a successful parse yields clean segments, and
      PDF segments are the only ones that carry a page number. */
  lemma ParseFileClean(name: string, source: FileSource)
    requires ParseFile(name, source).Success?
    ensures CleanSegments(ParseFile(name, source).value)
    ensures Extension(name) != ".pdf" ==> |ParseFile(name, source).value| <= 1
    ensures forall i :: 0 <= i < |ParseFile(name, source).value| ==>
      (ParseFile(name, source).value[i].page.Some? <==> Extension(name) == ".pdf")
  {
    if Extension(name) == ".pdf" {
      PdfSegmentsSound(StrippedPages(source.pdfPages), 1);
    }
  }

  /** Two names that differ only in ASCII letter case parse alike. */
  lemma ParseFileIgnoresCase(name1: string, name2: string, source: FileSource)
    requires AsciiLower(name1) == AsciiLower(name2)
    ensures ParseFile(name1, source) == ParseFile(name2, source)
  {
    SuffixLower(name1);
    SuffixLower(name2);
  }

  /** `report.PDF` is read as a PDF. */
  lemma UpperCasePdfAccepted(source: FileSource)
    ensures ParseFile("report.PDF", source) == Success(PdfSegments(source.pdfPages))
  {
    SuffixOfStemAndExt("report", "PDF");
    assert "report" + ['.'] + "PDF" == "report.PDF";
    assert AsciiLower(".PDF") == ".pdf";
  }

  /** `notes.rst` is refused, and the error names its extension. */
  lemma OtherExtensionRefused(source: FileSource)
    ensures ParseFile("notes.rst", source) == Failure(UnsupportedFileType(".rst"))
  {
    SuffixOfStemAndExt("notes", "rst");
    assert "notes" + ['.'] + "rst" == "notes.rst";
    assert AsciiLower(".rst") == ".rst";
  }

  /** A file named just `.md` has no suffix at all, so it is refused with an
      empty extension. */
  lemma DotFileRefused(source: FileSource)
    ensures ParseFile(".md", source) == Failure(UnsupportedFileType(""))
  {
    assert RFind(".md", '.') == 0;
  }
}

=== FILE: prompt.dfy ===
/** `build_prompt`: the fixed template that wraps the retrieved contexts and
    the user's question for the language model. */
module Prompt {
  import opened Text

  /** The two instruction lines and the blank line after them. */
  const Instructions := "Bạn là trợ lý. Chỉ trả lời dựa trên CONTEXT. Nếu không đủ thông tin, nói rõ.\n"
                      + "Luôn trả lời tiếng Việt.\n\n"

  const ContextLabel := "CONTEXT:\n"
  const ContextSeparator := "\n\n"
  const QuestionLabel := "\n\nQUESTION: "
  const AnswerLabel := "\nANSWER:"

  /** Everything before the contexts. */
  function Preamble(): string {
    Instructions + ContextLabel
  }

  /** Everything after the question's text, given the question. */
  function Closing(question: string): string {
    QuestionLabel + question + AnswerLabel
  }

  /** The instructions, then `"CONTEXT:\n"` and the contexts joined by blank
      lines, and finally `"\n\nQUESTION: "`, the question and `"\nANSWER:"`. */
  function BuildPrompt(question: string, contexts: seq<string>): (prompt: string)
    ensures StartsWith(prompt, Instructions)
    ensures OccursAt(ContextLabel, prompt, |Instructions|)
    ensures |prompt| == |Preamble()| + |JoinWith(ContextSeparator, contexts)| + |Closing(question)|
    ensures OccursAt(Closing(question), prompt, |prompt| - |Closing(question)|)
  {
    var body := JoinWith(ContextSeparator, contexts);
    var prompt := Preamble() + body + Closing(question);
    assert prompt[|Instructions|..|Instructions| + |ContextLabel|] == ContextLabel;
    assert prompt[|prompt| - |Closing(question)|..] == Closing(question);
    prompt
  }

  /** The context body of a prompt, cut out from between the preamble and
      the closing lines of a known question. */
  function ContextBody(prompt: string, question: string): string
    requires |Preamble()| + |Closing(question)| <= |prompt|
  {
    prompt[|Preamble()|..|prompt| - |Closing(question)|]
  }

  /** The question of a prompt, cut out once the contexts are known. */
  function QuestionOf(prompt: string, contexts: seq<string>): string
    requires |Preamble()| + |JoinWith(ContextSeparator, contexts)| + |QuestionLabel| + |AnswerLabel| <= |prompt|
  {
    prompt[|Preamble()| + |JoinWith(ContextSeparator, contexts)| + |QuestionLabel|..|prompt| - |AnswerLabel|]
  }

  lemma BodyInPrompt(question: string, contexts: seq<string>)
    ensures OccursAt(JoinWith(ContextSeparator, contexts), BuildPrompt(question, contexts), |Preamble()|)
  {
    var body := JoinWith(ContextSeparator, contexts);
    assert BuildPrompt(question, contexts)[|Preamble()|..|Preamble()| + |body|] == body;
  }

  /** The prompt is the preamble, the contexts joined by blank lines, and the
      closing lines, and both the joined contexts and the question can be
      read back out of it. */
  lemma {:induction false} PromptRoundTrip(question: string, contexts: seq<string>)
    ensures var prompt := BuildPrompt(question, contexts);
      && |Preamble()| + |Closing(question)| <= |prompt|
      && ContextBody(prompt, question) == JoinWith(ContextSeparator, contexts)
      && QuestionOf(prompt, contexts) == question
  {
    var body := JoinWith(ContextSeparator, contexts);
    var prompt := BuildPrompt(question, contexts);
    assert prompt == Preamble() + body + (QuestionLabel + question + AnswerLabel);
    assert prompt[|Preamble()|..|prompt| - |Closing(question)|] == body;
    assert prompt == (Preamble() + body + QuestionLabel) + question + AnswerLabel;
  }

  /** With the contexts fixed, different questions give different prompts. */
  lemma PromptInjectiveInQuestion(q1: string, q2: string, contexts: seq<string>)
    requires BuildPrompt(q1, contexts) == BuildPrompt(q2, contexts)
    ensures q1 == q2
  {
    PromptRoundTrip(q1, contexts);
    PromptRoundTrip(q2, contexts);
  }

  /** Every context appears whole, in the given order, in the CONTEXT
      section, and a blank line follows each context but the last. */
  lemma ContextsInOrder(question: string, contexts: seq<string>, i: nat)
    requires i < |contexts|
    ensures var at := |Preamble()| + JoinOffset(ContextSeparator, contexts, i);
      && OccursAt(contexts[i], BuildPrompt(question, contexts), at)
      && (i + 1 < |contexts| ==> OccursAt(ContextSeparator, BuildPrompt(question, contexts), at + |contexts[i]|)
                                 && at + |contexts[i]| + |ContextSeparator| == |Preamble()| + JoinOffset(ContextSeparator, contexts, i + 1))
  {
    var body := JoinWith(ContextSeparator, contexts);
    var prompt := BuildPrompt(question, contexts);
    BodyInPrompt(question, contexts);
    JoinPlacesParts(ContextSeparator, contexts, i);
    OccursAtTrans(contexts[i], body, prompt, JoinOffset(ContextSeparator, contexts, i), |Preamble()|);
    if i + 1 < |contexts| {
      OccursAtTrans(ContextSeparator, body, prompt, JoinOffset(ContextSeparator, contexts, i) + |contexts[i]|, |Preamble()|);
      JoinOffsetStep(ContextSeparator, contexts, i);
    }
  }

  /** No contexts leave the CONTEXT section empty. */
  lemma NoContextsEmptySection(question: string)
    ensures BuildPrompt(question, []) == Instructions + "CONTEXT:\n\n\nQUESTION: " + question + "\nANSWER:"
  {
  }

  /** A single context appears verbatim. */
  lemma SingleContextVerbatim(question: string, context: string)
    ensures BuildPrompt(question, [context]) == Instructions + "CONTEXT:\n" + context + "\n\nQUESTION: " + question + "\nANSWER:"
  {
  }
}

=== FILE: records.dfy ===
/** The records that flow from the parser into the chunker, shaped after the
    `chunks` table: an optional page number, a running chunk index, the text. */
module Records {
  import opened Wrappers

  /** One extracted piece of a document: `(page, text)` in the source.
      `page` is `None` for formats without page structure. */
  datatype Segment = Segment(page: Option<int>, text: string)

  /** One chunk as produced by the chunker (`{"page", "chunk_index", "content"}`). */
  datatype Chunk = Chunk(page: Option<int>, chunkIndex: nat, content: string)
}

=== FILE: text.dfy ===
/** The few pieces of Python string semantics the services rely on:
    `str.isspace`, `str.strip`, `str.split()` with no separator, `sep.join`,
    the substring test `needle in hay`, and `str.startswith`. */
module Text {

  /** Python's `str.isspace()` on one character: the ASCII controls TAB..CR and
      FS..US, the space, NEL, NO-BREAK SPACE and the Unicode space separators,
      LINE SEPARATOR and PARAGRAPH SEPARATOR. */
  predicate IsSpace(c: char) {
    || ('\t' <= c <= '\r')
    || ('\U{1C}' <= c <= ' ')
    || c == '\U{85}' || c == '\U{A0}' || c == '\U{1680}'
    || ('\U{2000}' <= c <= '\U{200A}')
    || c == '\U{2028}' || c == '\U{2029}' || c == '\U{202F}' || c == '\U{205F}' || c == '\U{3000}'
  }

  predicate AllSpace(s: string) {
    forall i :: 0 <= i < |s| ==> IsSpace(s[i])
  }

  predicate NoSpace(s: string) {
    forall i :: 0 <= i < |s| ==> !IsSpace(s[i])
  }

  /** No whitespace at either end: what `strip()` guarantees. */
  predicate Trimmed(s: string) {
    s == [] || (!IsSpace(s[0]) && !IsSpace(s[|s| - 1]))
  }

  /** The only whitespace character is the plain space ' '. */
  predicate OnlyPlainSpaces(s: string) {
    forall i :: 0 <= i < |s| && IsSpace(s[i]) ==> s[i] == ' '
  }

  /** Positions `i` and `i + 1` both hold whitespace. */
  predicate DoubleSpaceAt(s: string, i: nat)
    requires i + 1 < |s|
  {
    IsSpace(s[i]) && IsSpace(s[i + 1])
  }

  /** No two whitespace characters are adjacent. */
  predicate NoDoubleSpace(s: string) {
    forall i: nat :: i + 1 < |s| ==> !DoubleSpaceAt(s, i)
  }

  /** The shape of `" ".join(s.split())`: trimmed, single plain spaces only. */
  predicate IsNormalized(s: string) {
    Trimmed(s) && OnlyPlainSpaces(s) && NoDoubleSpace(s)
  }

  // ---------------------------------------------------------------------------
  // Substrings

  /** `needle` sits in `hay` at offset `k`. */
  predicate OccursAt(needle: string, hay: string, k: nat) {
    k + |needle| <= |hay| && hay[k..k + |needle|] == needle
  }

  /** Python's `s.startswith(prefix)`. */
  predicate StartsWith(s: string, prefix: string) {
    |prefix| <= |s| && s[..|prefix|] == prefix
  }

  /** Python's `needle in hay` on strings, as a left-to-right scan. */
  predicate Contains(hay: string, needle: string)
    decreases |hay|
  {
    StartsWith(hay, needle) || (hay != [] && Contains(hay[1..], needle))
  }

  /** An occurrence at any offset is found by the scan. */
  lemma {:induction false} OccursImpliesContains(hay: string, needle: string, k: nat)
    requires OccursAt(needle, hay, k)
    ensures Contains(hay, needle)
    decreases k
  {
    if k == 0 {
      assert StartsWith(hay, needle);
    } else {
      assert hay[1..][k - 1..k - 1 + |needle|] == hay[k..k + |needle|];
      OccursImpliesContains(hay[1..], needle, k - 1);
    }
  }

  /** What the scan finds occurs at some offset. */
  lemma {:induction false} ContainsImpliesOccurs(hay: string, needle: string)
    requires Contains(hay, needle)
    ensures exists k: nat :: OccursAt(needle, hay, k)
    decreases |hay|
  {
    if StartsWith(hay, needle) {
      assert OccursAt(needle, hay, 0);
    } else {
      ContainsImpliesOccurs(hay[1..], needle);
      var k: nat :| OccursAt(needle, hay[1..], k);
      assert hay[1..][k..k + |needle|] == hay[k + 1..k + 1 + |needle|];
      assert OccursAt(needle, hay, k + 1);
    }
  }

  /** The scan agrees with the offset definition of a substring, both ways. */
  lemma ContainsIffOccurs(hay: string, needle: string)
    ensures Contains(hay, needle) <==> exists k: nat :: OccursAt(needle, hay, k)
  {
    forall k: nat | OccursAt(needle, hay, k) ensures Contains(hay, needle) {
      OccursImpliesContains(hay, needle, k);
    }
    if Contains(hay, needle) {
      ContainsImpliesOccurs(hay, needle);
    }
  }

  /** A slice of a slice is a slice of the whole. */
  lemma SliceOfSlice<T>(t: seq<T>, a: nat, b: nat, i: nat, j: nat)
    requires a <= b <= |t| && i <= j <= b - a
    ensures t[a..b][i..j] == t[a + i..a + j]
  {
    forall k | 0 <= k < j - i ensures t[a..b][i..j][k] == t[a + i + k] {
      assert t[a..b][i..j][k] == t[a..b][i + k];
    }
  }

  /** A substring of a substring is a substring of the whole. */
  lemma OccursAtTrans(a: string, b: string, c: string, i: nat, j: nat)
    requires OccursAt(a, b, i) && OccursAt(b, c, j)
    ensures OccursAt(a, c, j + i)
  {
    forall t | 0 <= t < |a| ensures c[j + i + t] == a[t] {
      assert a[t] == b[i + t];
    }
    assert c[j + i..j + i + |a|] == a;
  }

  // ---------------------------------------------------------------------------
  // Scanning

  /** The first position at or after `i` that is not whitespace, or `|s|`. */
  function SkipSpaces(s: string, i: nat): (j: nat)
    requires i <= |s|
    ensures i <= j <= |s|
    ensures forall k :: i <= k < j ==> IsSpace(s[k])
    ensures j == |s| || !IsSpace(s[j])
    decreases |s| - i
  {
    if i < |s| && IsSpace(s[i]) then SkipSpaces(s, i + 1) else i
  }

  /** The first position at or after `i` that is whitespace, or `|s|`. */
  function SkipWord(s: string, i: nat): (j: nat)
    requires i <= |s|
    ensures i <= j <= |s|
    ensures forall k :: i <= k < j ==> !IsSpace(s[k])
    ensures j == |s| || IsSpace(s[j])
    decreases |s| - i
  {
    if i < |s| && !IsSpace(s[i]) then SkipWord(s, i + 1) else i
  }

  /** The position right after the last non-whitespace character before `j`, or 0. */
  function SkipSpacesBack(s: string, j: nat): (i: nat)
    requires j <= |s|
    ensures i <= j
    ensures forall k :: i <= k < j ==> IsSpace(s[k])
    ensures i == 0 || !IsSpace(s[i - 1])
  {
    if 0 < j && IsSpace(s[j - 1]) then SkipSpacesBack(s, j - 1) else j
  }

  // ---------------------------------------------------------------------------
  // strip()

  /** Where `Strip(s)` starts inside `s`: the number of leading whitespace characters. */
  function StripOffset(s: string): nat
    ensures StripOffset(s) <= |s|
  {
    SkipSpaces(s, 0)
  }

  /** Where `Strip(s)` ends inside `s`: right after the last non-whitespace
      character, or at `StripOffset(s)` when there is none. */
  function StripEnd(s: string): (e: nat)
    ensures StripOffset(s) <= e <= |s|
  {
    if StripOffset(s) == |s| then |s|
    else
      SkipSpacesBack(s, |s|)
  }

  /** Python's `s.strip()`: a trimmed slice of `s`, starting at `StripOffset(s)`. */
  function Strip(s: string): (r: string)
    ensures StripOffset(s) + |r| <= |s|
    ensures r == s[StripOffset(s)..StripOffset(s) + |r|]
    ensures Trimmed(r)
  {
    s[StripOffset(s)..StripEnd(s)]
  }

  /** `strip()` removes whitespace and nothing else: everything outside the
      result is whitespace, and the result is empty exactly when `s` is all
      whitespace. */
  lemma StripDropsOnlySpace(s: string)
    ensures forall k :: 0 <= k < StripOffset(s) ==> IsSpace(s[k])
    ensures forall k :: StripOffset(s) + |Strip(s)| <= k < |s| ==> IsSpace(s[k])
    ensures Strip(s) == [] <==> AllSpace(s)
  {
  }

  /** `strip()` never cuts into a stretch that starts and ends with
      non-whitespace: such a stretch survives inside the result. */
  lemma StripKeepsInner(s: string, a: nat, b: nat)
    requires a < b <= |s|
    requires !IsSpace(s[a]) && !IsSpace(s[b - 1])
    ensures StripOffset(s) <= a && b <= StripOffset(s) + |Strip(s)|
    ensures OccursAt(s[a..b], Strip(s), a - StripOffset(s))
  {
    StripDropsOnlySpace(s);
    var off := StripOffset(s);
    var r := Strip(s);
    assert off <= a;
    assert b <= off + |r|;
    SliceOfSlice(s, off, off + |r|, a - off, b - off);
  }

  /** A piece of `hay` that is not blank keeps its stripped form when the
      whole of `hay` is stripped. */
  lemma StripKeepsStrippedPart(q: string, hay: string, o: nat)
    requires OccursAt(q, hay, o) && Strip(q) != []
    ensures Contains(Strip(hay), Strip(q))
  {
    var sq := Strip(q);
    var so := StripOffset(q);
    assert OccursAt(sq, q, so);
    OccursAtTrans(sq, q, hay, so, o);
    var a := o + so;
    assert hay[a] == sq[0] && hay[a + |sq| - 1] == sq[|sq| - 1];
    StripKeepsInner(hay, a, a + |sq|);
    assert hay[a..a + |sq|] == sq;
    OccursImpliesContains(Strip(hay), sq, a - StripOffset(hay));
  }

  /** Stripping a string that is already trimmed changes nothing. */
  lemma StripTrimmed(s: string)
    requires Trimmed(s)
    ensures Strip(s) == s
  {
    if s != [] {
      assert !IsSpace(s[0]);
      assert StripOffset(s) == 0;
      assert !IsSpace(s[|s| - 1]);
    }
  }

  // ---------------------------------------------------------------------------
  // split() and join

  predicate ValidWord(w: string) {
    w != [] && NoSpace(w)
  }

  predicate ValidWords(ws: seq<string>) {
    forall i :: 0 <= i < |ws| ==> ValidWord(ws[i])
  }

  /** Python's `s.split()` with no separator: the maximal whitespace-free runs, in order. */
  function Words(s: string): (ws: seq<string>)
    ensures ValidWords(ws)
    decreases |s|
  {
    if s == [] then []
    else if IsSpace(s[0]) then Words(s[1..])
    else
      var k := SkipWord(s, 0);
      [s[..k]] + Words(s[k..])
  }

  /** `split()` finds no word exactly when the string is all whitespace. */
  lemma {:induction false} WordsEmptyIff(s: string)
    ensures Words(s) == [] <==> AllSpace(s)
    decreases |s|
  {
    if s != [] && IsSpace(s[0]) {
      WordsEmptyIff(s[1..]);
      assert AllSpace(s) <==> AllSpace(s[1..]) by {
        if AllSpace(s[1..]) {
          forall i | 0 < i < |s| ensures IsSpace(s[i]) {
            assert s[i] == s[1..][i - 1];
          }
        }
      }
    }
  }

  /** Python's `sep.join(parts)`. */
  function JoinWith(sep: string, parts: seq<string>): string {
    if |parts| == 0 then []
    else if |parts| == 1 then parts[0]
    else parts[0] + sep + JoinWith(sep, parts[1..])
  }

  /** Where `parts[i]` starts inside `JoinWith(sep, parts)`. */
  function JoinOffset(sep: string, parts: seq<string>, i: nat): nat
    requires i <= |parts|
  {
    if i == 0 then 0 else |parts[0]| + |sep| + JoinOffset(sep, parts[1..], i - 1)
  }

  /** Consecutive parts start one part and one separator apart. */
  lemma {:induction false} JoinOffsetStep(sep: string, parts: seq<string>, i: nat)
    requires i + 1 <= |parts|
    ensures JoinOffset(sep, parts, i + 1) == JoinOffset(sep, parts, i) + |parts[i]| + |sep|
    decreases i
  {
    if i > 0 {
      JoinOffsetStep(sep, parts[1..], i - 1);
    }
  }

  /** The joined string holds every part, in order, at its offset, with `sep`
      right after each part but the last, and nothing after the last part. */
  lemma {:induction false} JoinPlacesParts(sep: string, parts: seq<string>, i: nat)
    requires i < |parts|
    ensures OccursAt(parts[i], JoinWith(sep, parts), JoinOffset(sep, parts, i))
    ensures i + 1 < |parts| ==> OccursAt(sep, JoinWith(sep, parts), JoinOffset(sep, parts, i) + |parts[i]|)
    ensures i + 1 == |parts| ==> |JoinWith(sep, parts)| == JoinOffset(sep, parts, i) + |parts[i]|
    decreases i
  {
    if |parts| == 1 {
    } else if i == 0 {
      JoinHead(sep, parts);
    } else {
      JoinPlacesParts(sep, parts[1..], i - 1);
      JoinTailStep(sep, parts, i);
    }
  }

  /** The first part and the separator after it open a join of two or more parts. */
  lemma JoinHead(sep: string, parts: seq<string>)
    requires 1 < |parts|
    ensures OccursAt(parts[0], JoinWith(sep, parts), 0)
    ensures OccursAt(sep, JoinWith(sep, parts), |parts[0]|)
  {
    var j := JoinWith(sep, parts);
    assert j == parts[0] + sep + JoinWith(sep, parts[1..]);
    assert j[..|parts[0]|] == parts[0];
    assert j[|parts[0]|..|parts[0]| + |sep|] == sep;
  }

  /** Placing part `i` of a join through its place in the join of the tail. */
  lemma JoinTailStep(sep: string, parts: seq<string>, i: nat)
    requires 0 < i < |parts|
    requires OccursAt(parts[1..][i - 1], JoinWith(sep, parts[1..]), JoinOffset(sep, parts[1..], i - 1))
    requires i + 1 < |parts| ==>
      OccursAt(sep, JoinWith(sep, parts[1..]), JoinOffset(sep, parts[1..], i - 1) + |parts[i]|)
    requires i + 1 == |parts| ==>
      |JoinWith(sep, parts[1..])| == JoinOffset(sep, parts[1..], i - 1) + |parts[i]|
    ensures OccursAt(parts[i], JoinWith(sep, parts), JoinOffset(sep, parts, i))
    ensures i + 1 < |parts| ==> OccursAt(sep, JoinWith(sep, parts), JoinOffset(sep, parts, i) + |parts[i]|)
    ensures i + 1 == |parts| ==> |JoinWith(sep, parts)| == JoinOffset(sep, parts, i) + |parts[i]|
  {
    var j := JoinWith(sep, parts);
    var rest := JoinWith(sep, parts[1..]);
    var d := |parts[0]| + |sep|;
    assert j == parts[0] + sep + rest;
    assert parts[1..][i - 1] == parts[i];
    var k := JoinOffset(sep, parts[1..], i - 1);
    assert OccursAt(rest, j, d) by { assert j[d..d + |rest|] == rest; }
    OccursAtTrans(parts[i], rest, j, k, d);
    if i + 1 < |parts| {
      OccursAtTrans(sep, rest, j, k + |parts[i]|, d);
    }
  }

  /** A join of a non-empty list starts with its first part and ends with its last. */
  lemma {:induction false} JoinEnds(sep: string, parts: seq<string>)
    requires parts != []
    ensures StartsWith(JoinWith(sep, parts), parts[0])
    ensures |parts[|parts| - 1]| <= |JoinWith(sep, parts)|
    ensures JoinWith(sep, parts)[|JoinWith(sep, parts)| - |parts[|parts| - 1]|..] == parts[|parts| - 1]
  {
    var j := JoinWith(sep, parts);
    if |parts| > 1 {
      JoinEnds(sep, parts[1..]);
      var rest := JoinWith(sep, parts[1..]);
      assert j == parts[0] + sep + rest;
      assert j[..|parts[0]|] == parts[0];
      assert j[|j| - |parts[|parts| - 1]|..] == rest[|rest| - |parts[|parts| - 1]|..];
    }
  }

  /** Python's `" ".join(s.split())`: collapse every whitespace run to one
      space and drop leading and trailing whitespace. */
  function Normalize(s: string): string {
    JoinWith(" ", Words(s))
  }

  /** Joining non-empty whitespace-free words with single spaces gives a normalized string. */
  lemma {:induction false} JoinWordsNormalized(ws: seq<string>)
    requires ValidWords(ws)
    ensures IsNormalized(JoinWith(" ", ws))
  {
    if |ws| == 1 {
      assert JoinWith(" ", ws) == ws[0];
      assert !IsSpace(ws[0][0]) && !IsSpace(ws[0][|ws[0]| - 1]);
    } else if |ws| > 1 {
      assert ValidWords(ws[1..]) by {
        forall i | 0 <= i < |ws| - 1 ensures ValidWord(ws[1..][i]) {
          assert ws[1..][i] == ws[i + 1];
        }
      }
      JoinWordsNormalized(ws[1..]);
      JoinEnds(" ", ws[1..]);
      JoinWordStep(ws[0], JoinWith(" ", ws[1..]));
      assert JoinWith(" ", ws) == ws[0] + " " + JoinWith(" ", ws[1..]);
    }
  }

  /** A word, a space and a non-empty normalized string make a normalized string. */
  lemma JoinWordStep(w: string, j: string)
    requires ValidWord(w) && j != [] && IsNormalized(j)
    ensures IsNormalized(w + " " + j)
  {
    var s := w + " " + j;
    assert !IsSpace(w[0]) && !IsSpace(j[0]) && !IsSpace(j[|j| - 1]);
    forall i | 0 <= i < |s| && IsSpace(s[i]) ensures s[i] == ' ' {
      if i > |w| {
        assert s[i] == j[i - |w| - 1];
      }
    }
    forall i: nat | i + 1 < |s| ensures !DoubleSpaceAt(s, i) {
      if i < |w| {
        assert s[i] == w[i];
      } else if i == |w| {
        assert s[i + 1] == j[0];
      } else {
        assert s[i] == j[i - |w| - 1];
        assert s[i + 1] == j[i - |w|];
        assert !DoubleSpaceAt(j, i - |w| - 1);
      }
    }
    assert s[0] == w[0];
    assert s[|s| - 1] == j[|j| - 1];
  }

  /** `Normalize` always produces the normalized shape. */
  lemma NormalizeIsNormalized(s: string)
    ensures IsNormalized(Normalize(s))
  {
    JoinWordsNormalized(Words(s));
  }

  /** A page text normalizes to the empty string exactly when it is all whitespace. */
  lemma NormalizeEmptyIff(s: string)
    ensures Normalize(s) == [] <==> AllSpace(s)
  {
    var ws := Words(s);
    WordsEmptyIff(s);
    if ws != [] {
      JoinEnds(" ", ws);
      assert ws[0] != [];
    }
  }

  /** `SkipWord` stops at the first whitespace after a whitespace-free run. */
  lemma {:induction false} SkipWordStops(s: string, i: nat, e: nat)
    requires i <= e <= |s|
    requires forall k :: i <= k < e ==> !IsSpace(s[k])
    requires e == |s| || IsSpace(s[e])
    ensures SkipWord(s, i) == e
    decreases e - i
  {
    if i < e {
      SkipWordStops(s, i + 1, e);
    }
  }

  /** A word followed by whitespace (or by nothing) is split off first. */
  lemma WordsOfCons(w: string, tail: string)
    requires ValidWord(w)
    requires tail == [] || IsSpace(tail[0])
    ensures Words(w + tail) == [w] + Words(tail)
  {
    var s := w + tail;
    assert s[0] == w[0];
    assert s[|w|..] == tail;
    SkipWordStops(s, 0, |w|);
    var k := SkipWord(s, 0);
    assert s[..k] == w;
    assert s[k..] == tail;
  }

  /** The round trip of split and join: splitting words joined by single spaces
      gives the same words back. */
  lemma {:induction false} WordsOfJoin(ws: seq<string>)
    requires ValidWords(ws)
    ensures Words(JoinWith(" ", ws)) == ws
  {
    if ws == [] {
    } else if |ws| == 1 {
      WordsOfCons(ws[0], []);
      assert ws[0] + [] == ws[0];
      assert [ws[0]] == ws;
    } else {
      assert ValidWords(ws[1..]) by {
        forall i | 0 <= i < |ws| - 1 ensures ValidWord(ws[1..][i]) {
          assert ws[1..][i] == ws[i + 1];
        }
      }
      WordsOfJoin(ws[1..]);
      WordsOfJoinStep(ws);
    }
  }

  /** The inductive step of `WordsOfJoin`. */
  lemma WordsOfJoinStep(ws: seq<string>)
    requires ValidWords(ws) && |ws| > 1
    requires Words(JoinWith(" ", ws[1..])) == ws[1..]
    ensures Words(JoinWith(" ", ws)) == ws
  {
    var w := ws[0];
    var j := JoinWith(" ", ws[1..]);
    var tail := [' '] + j;
    assert JoinWith(" ", ws) == w + tail by {
      assert JoinWith(" ", ws) == w + " " + j;
    }
    JoinEnds(" ", ws[1..]);
    assert j[0] == ws[1][0];
    WordsOfCons(w, tail);
    assert tail[1..] == j;
    assert Words(tail) == Words(j);
    HeadTail(ws);
  }

  lemma HeadTail<T>(s: seq<T>)
    requires s != []
    ensures [s[0]] + s[1..] == s
  {
  }

  /** Normalizing twice is the same as normalizing once. */
  lemma NormalizeIdempotent(s: string)
    ensures Normalize(Normalize(s)) == Normalize(s)
  {
    WordsOfJoin(Words(s));
  }

  // ---------------------------------------------------------------------------
  // What split() keeps

  /** The non-whitespace characters of `s`, in order. */
  function DropSpaces(s: string): (r: string)
    ensures NoSpace(r)
    ensures |r| <= |s|
  {
    if s == [] then []
    else (if IsSpace(s[0]) then [] else [s[0]]) + DropSpaces(s[1..])
  }

  /** The words of a list, written one after the other. */
  function Concat(ws: seq<string>): string {
    if ws == [] then [] else ws[0] + Concat(ws[1..])
  }

  lemma {:induction false} DropSpacesAppend(a: string, b: string)
    ensures DropSpaces(a + b) == DropSpaces(a) + DropSpaces(b)
    decreases |a|
  {
    if a != [] {
      assert (a + b)[0] == a[0];
      assert (a + b)[1..] == a[1..] + b;
      DropSpacesAppend(a[1..], b);
    } else {
      assert a + b == b;
    }
  }

  /** A whitespace-free string keeps all its characters. */
  lemma {:induction false} DropSpacesOfNoSpace(w: string)
    requires NoSpace(w)
    ensures DropSpaces(w) == w
    decreases |w|
  {
    if w != [] {
      assert NoSpace(w[1..]) by {
        forall k | 0 <= k < |w| - 1 ensures !IsSpace(w[1..][k]) {
          assert w[1..][k] == w[k + 1];
        }
      }
      DropSpacesOfNoSpace(w[1..]);
      HeadTail(w);
    }
  }

  /** `split()` loses exactly the whitespace: its words, written one after
      the other, are the text's non-whitespace characters in order. */
  lemma {:induction false} WordsKeepText(s: string)
    ensures Concat(Words(s)) == DropSpaces(s)
    decreases |s|
  {
    if s != [] {
      if IsSpace(s[0]) {
        WordsKeepText(s[1..]);
      } else {
        var k := SkipWord(s, 0);
        WordsKeepText(s[k..]);
        assert s == s[..k] + s[k..];
        DropSpacesAppend(s[..k], s[k..]);
        DropSpacesOfNoSpace(s[..k]);
        assert Words(s)[0] == s[..k] && Words(s)[1..] == Words(s[k..]);
      }
    }
  }

  /** Joining words with single spaces keeps their characters and adds only
      whitespace. */
  lemma {:induction false} DropSpacesOfJoin(ws: seq<string>)
    requires ValidWords(ws)
    ensures DropSpaces(JoinWith(" ", ws)) == Concat(ws)
  {
    if |ws| == 1 {
      DropSpacesOfNoSpace(ws[0]);
      assert Concat(ws) == ws[0] + Concat([]);
    } else if |ws| > 1 {
      assert ValidWords(ws[1..]) by {
        forall i | 0 <= i < |ws| - 1 ensures ValidWord(ws[1..][i]) {
          assert ws[1..][i] == ws[i + 1];
        }
      }
      DropSpacesOfJoin(ws[1..]);
      DropSpacesOfNoSpace(ws[0]);
      var rest := JoinWith(" ", ws[1..]);
      assert JoinWith(" ", ws) == ws[0] + (" " + rest);
      DropSpacesAppend(ws[0], " " + rest);
      DropSpacesAppend(" ", rest);
      assert DropSpaces(" ") == [];
    }
  }

  /** Normalizing keeps every non-whitespace character, in order. */
  lemma NormalizeKeepsText(s: string)
    ensures DropSpaces(Normalize(s)) == DropSpaces(s)
  {
    WordsKeepText(s);
    DropSpacesOfJoin(Words(s));
  }

  /** Normalizing keeps the words: splitting the normalized text gives the
      words of the original. */
  lemma NormalizeKeepsWords(s: string)
    ensures Words(Normalize(s)) == Words(s)
  {
    WordsOfJoin(Words(s));
  }

  /** A single word splits to itself. */
  lemma WordsOfWord(w: string)
    requires ValidWord(w)
    ensures Words(w) == [w]
  {
    WordsOfCons(w, []);
    assert w + [] == w;
  }

  /** Words never span whitespace: splitting two texts that meet at
      whitespace (or where either is empty) gives the words of the first,
      then those of the second. With `WordsOfWord` this determines `Words`:
      every text is its whitespace-free runs separated by whitespace. */
  lemma {:induction false} WordsAppend(a: string, b: string)
    requires a == [] || b == [] || IsSpace(a[|a| - 1]) || IsSpace(b[0])
    ensures Words(a + b) == Words(a) + Words(b)
    decreases |a|
  {
    var s := a + b;
    if a == [] {
      assert s == b;
    } else if IsSpace(a[0]) {
      assert s[0] == a[0];
      assert s[1..] == a[1..] + b;
      WordsAppend(a[1..], b);
    } else {
      var k := SkipWord(a, 0);
      assert s[0] == a[0];
      if k == |a| {
        assert ValidWord(a);
        WordsOfWord(a);
        if b == [] {
          assert s == a;
        } else {
          WordsOfCons(a, b);
        }
      } else {
        forall j | 0 <= j < k ensures !IsSpace(s[j]) {
          assert s[j] == a[j];
        }
        assert s[k] == a[k];
        SkipWordStops(s, 0, k);
        assert s[..k] == a[..k];
        assert s[k..] == a[k..] + b;
        WordsAppend(a[k..], b);
      }
    }
  }
}

=== FILE: wrappers.dfy ===
/** `Option` and `Result` wrappers used across the model: `Option` for Python's
    `None`-or-value returns and `Result` for a return that may instead raise. */
module Wrappers {

  datatype Option<+T> = None | Some(value: T) {

    /** Returns the wrapped value, or `default` for `None`. */
    function GetOr(default: T): T {
      match this
      case Some(v) => v
      case None => default
    }
  }

  datatype Result<+R, +E> = Success(value: R) | Failure(error: E)
}
